=== FILE: README.md ===
# ConfigCove: manifest registration and remote backup, modelled in Dafny

ConfigCove backs up configuration files from a fleet of machines into one
local tree. It has two halves, and both are modelled here.

- **Registration** (`confcove_client.py`) runs on the machine whose files
  are to be backed up. Each input becomes an absolute path. A regular file
  is stored as is. A directory is stored with a trailing `/`. Anything else
  is treated as a glob pattern, and the regular files it matches are
  stored. The manifest is rewritten as the sorted set of all entries, one
  per line.
- **Backup** (`confcove_server.py`) runs on the backup host. For each
  machine of the inventory it:
  - merges the machine's record with the defaults;
  - connects over SSH;
  - expands `~` and `$HOME` in the manifest path on the remote side;
  - reads the manifest;
  - lists each entry remotely (a recursive `find` for a directory, `ls -d`
    otherwise);
  - downloads every listed file over SFTP into
    `/opt/ConfigCove_repo/<machine name>/...` (into `<machine name>/...`
    when the name is itself an absolute path, because `os.path.join` then
    drops the backup directory);
  - closes the session on every exit path.

Modules:

- `Wrappers`: `Option` and `Result`.
- `Ordering`: Python's string order, and `sorted` applied to a set of
  strings.
- `PyStr`: `splitlines`, `"\n".join`, `strip`, substring test and
  `replace`, with Python's line boundaries and whitespace.
- `PosixPath`: `os.path.join` and `os.path.dirname`.
- `ConfcoveClient`: `get_absolute_path` and `track_files_or_directories`.
  - The local filesystem and path library are the function fields of a
    `LocalHost` value.
  - The manifest comes in as its text, or `None` when it does not exist.
  - What is written and what is printed come out.
  - The loops of the source are kept as loops.
- `ConfcoveServer`: everything else.
  - The SSH connection is a `Session` object. Its flags say whether it is
    open and whether an SFTP channel is open, and it logs every command
    it ran.
  - The local backup tree is a `LocalStore` object: a map from path to
    bytes, and the set of directories made.
  - The remote machine is a `Remote` value: what each shell command prints
    or raises, whether `open_sftp` raises, and what each `sftp.get`
    transfers or raises.
  - Each operation is a method over these objects. Each is proved against
    a specification function (`ExpandSpec`, `ListingSpec`, `BatchSpec`,
    `ProcessSpec`, `MachineSpec`, `RunSpec`), and the properties are
    lemmas about those functions.

### Where the code differs from the described behaviour

The model follows the code in each of these cases.

- **Only connection failures are isolated per machine.** `connect_ssh`
  catches every exception and returns `None`, so an unreachable machine is
  skipped and the run goes on (`ConnectionFailureIsolated`). Other
  exceptions escape `backup_machine` after the session is closed, and
  nothing in `main` catches them, so the whole run ends at that machine
  (`RunStopsAtCrash`, `RunInOrder`). These exceptions include:
  - an exception raised by `exec_command` itself. A command that merely
    fails raises nothing: its exit status is never read. A `cat` of a
    missing manifest therefore reads as empty output, and the machine ends
    backed up with no files;
  - a failing `open_sftp`;
  - a missing `name` or `host` key;
  - a `tracked_file_path` that is absent from the record and from the
    defaults (`'~' in None` raises).
- **Inside `process_tracked_files`, the first failing entry ends the
  machine.** The entries after it are not processed
  (`EntriesStopAtFault`). Transfer errors, by contrast, are caught file by
  file (`AttemptsInOrder`).
- **Both branches of the destination rule agree on absolute remote
  paths.** The rule has a branch for a trailing `/` and a branch that
  strips one character. When the local base does not end in `/` (the case
  for every non-empty machine name that does not end in `/`), a remote path with a
  single leading `/` gives `local_base + remote_file` under both
  (`DestinationKeepsRemotePath`). So a
  single-file entry is mirrored at its full remote path, not "at the
  mirror root".
- **The strip branch can lose a character or escape the machine's
  directory.** A relative listing line such as `notes.txt` loses its first
  letter, and a path starting with `//` escapes the per-machine directory
  (`DestinationStripBranchExamples`).
- **The manifest round trip fails for one set.** Reading back a written
  manifest returns the same set, except for the set holding only the empty
  string (`SerialiseRoundTrip`, `SerialiseLosesLoneBlank`).
- **Home expansion can rebuild `$HOME`.** It is not idempotent when the
  remote home is unusual: `$$HOME` with home `HOME` expands back to
  `$HOME` (`ExpansionCanRebuildToken`). With an absolute home free of `~`
  and `$`, no token survives (`ExpansionRemovesTokens`).

## Model

| member | source | states |
|---|---|---|
| ConfcoveClient.AbsolutePath | confcove_client.py:9-13 | with a normaliser that behaves like `os.path.abspath` (never empty, adds no line boundary) and an `expanduser` that adds none, the absolute path is non-empty, and it is line-free whenever the input is |
| ConfcoveClient.NormalisesLikePython | confcove_client.py:13 | a host whose `expanduser` puts a line-free home in place of a leading `~` and whose `abspath` puts a line-free working directory in front of a relative path meets the normaliser assumption `Normalises` |
| ConfcoveClient.StoredEntries | confcove_client.py:25-29 | an existing manifest gives exactly the set of its lines, none holding a line boundary; a missing manifest gives the empty set |
| ConfcoveClient.TrackFilesOrDirectories | confcove_client.py:24-58 | the written text is the sorted, newline-joined union of the stored entries and what every input adds; the printed lines are each input's report, in input order |
| ConfcoveClient.TrackOne | confcove_client.py:33-54 | one input adds its file, its directory with a trailing `/`, or its pattern's regular files, and prints the matching line or the no-match error |
| ConfcoveClient.TrackMatches | confcove_client.py:48-52 | the loop over a pattern's matches adds exactly the regular files among them and prints one line for each |
| ConfcoveClient.PatternFilesExactly | confcove_client.py:46-52 | an entry comes from a pattern if and only if it is the absolute form of a match that is a regular file |
| ConfcoveClient.PatternSkipsDirectories | confcove_client.py:48-52 | matches that are not regular files add nothing and print nothing |
| ConfcoveClient.DirectoryEntryHasSlash | confcove_client.py:40-43 | a directory is stored only with a trailing `/`, never under its bare path |
| ConfcoveClient.AddedEntriesExist | confcove_client.py:36-52 | every added entry names a regular file, or a directory followed by `/` |
| ConfcoveClient.AddedAllExactly | confcove_client.py:32-54 | an entry is added if and only if some input contributes it |
| ConfcoveClient.AddedAllAppend | confcove_client.py:32-54 | the entries added for two input lists run one after the other are the union of the entries each list adds |
| ConfcoveClient.ConcatMapAppend | confcove_client.py:32-54 | the reports of two input lists run one after the other are the reports of each list, concatenated |
| ConfcoveClient.ReportAllAppend | confcove_client.py:32-54 | the printed lines for two input lists run one after the other are the lines each list prints, concatenated |
| ConfcoveClient.NoMatchesSkipped | confcove_client.py:53-54 | an input that matches nothing adds nothing and prints one error naming the input as given; the other inputs are processed as if it were absent |
| ConfcoveClient.RegistrationOrderIrrelevant | confcove_client.py:32-58 | the written manifest depends only on the set of inputs, not on their order or repetition |
| ConfcoveClient.TrackSameFileTwice | confcove_client.py:36-58 | registering one file twice on an empty manifest writes exactly one line |
| ConfcoveClient.AddedEntriesPlain | confcove_client.py:9-13 | with such a normaliser every added entry is non-empty; when the run's inputs and the names its patterns match hold no line boundary, every added entry is line-free too |
| ConfcoveClient.SerialiseLines | confcove_client.py:58 | the written manifest splits back into the sorted entries |
| ConfcoveClient.SerialiseRoundTrip | confcove_client.py:27-58 | reading back a written manifest gives the same set of entries, unless the set is the lone empty string |
| ConfcoveClient.SerialiseLosesLoneBlank | confcove_client.py:27-58 | the set holding only the empty string is written as empty text and read back as no entries |
| ConfcoveClient.WrittenManifestCanonical | confcove_client.py:58 | the written manifest reads back strictly sorted, hence without duplicate lines |
| ConfcoveClient.RegistrationAdditive | confcove_client.py:24-58 | when the entries the run adds are non-empty and line-free, every old entry and every added entry is a line of the new manifest, except a blank old entry when the new entry set is `{""}`, which is written as the empty text |
| ConfcoveClient.SuccessiveRegistrations | confcove_client.py:24-58 | two separate runs, each with its own working directory and filesystem, the first adding non-empty line-free entries: the second entry set holds what both added, and so do the lines of the second manifest when the second run's entries are non-empty and line-free too |
| Ordering.Canonical | confcove_client.py:58 | `sorted` of a set holds exactly the set's elements, once each, in strictly increasing order |
| PyStr.SplitJoin | confcove_client.py:58 | `splitlines` undoes `"\n".join` on lines without boundaries whose last line is non-empty |
| PyStr.SplitLinesLineFree | confcove_client.py:27 | no line that `splitlines` returns holds a line boundary |
| PyStr.StripRemovesSurroundingSpace | confcove_server.py:95 | `strip` keeps the slice of the text between its leading and trailing whitespace, which it removes entirely |
| PyStr.ContainsExactly | confcove_server.py:156-159 | `t in s` holds if and only if `t` occurs at some index of `s` |
| PyStr.ReplaceAbsent | confcove_server.py:163 | `replace` leaves a text without the pattern unchanged |
| PyStr.ReplaceRemovesChar | confcove_server.py:157 | replacing a character removes every occurrence of it, unless the replacement holds it |
| PyStr.ReplaceInsertsNew | confcove_server.py:157-159 | replacing a character that occurs leaves an occurrence of the replacement, so the `$HOME` test then succeeds |
| Ordering.BelowIrreflexive | confcove_client.py:58 | no string is below itself in Python's order |
| Ordering.BelowAsymmetric | confcove_client.py:58 | of two strings, at most one is below the other |
| Ordering.BelowTransitive | confcove_client.py:58 | Python's string order is transitive |
| Ordering.BelowTotal | confcove_client.py:58 | of two different strings, one is below the other |
| ConfcoveServer.Session.Exec | confcove_server.py:94-95 | running a command records it and yields what the remote prints or raises |
| ConfcoveServer.Session.OpenSftp | confcove_server.py:111 | the channel opens unless the remote raises, and that exception is returned |
| ConfcoveServer.Session.Get | confcove_server.py:125 | a transfer yields the bytes the remote serves for that file, or the error it raises |
| ConfcoveServer.Session.CloseSftp | confcove_server.py:133 | the SFTP channel is closed; the session stays open or closed as it was, and no command is logged |
| ConfcoveServer.Session.Close | confcove_server.py:191 | closing leaves neither the session nor its SFTP channel open |
| ConfcoveServer.LocalStore.MakeDirs | confcove_server.py:121-122 | the directory is recorded and no file changes |
| ConfcoveServer.LocalStore.Write | confcove_server.py:125 | the path now holds the bytes, and nothing else changes |
| ConfcoveServer.GetTrackedFilePath | confcove_server.py:151-168 | the result is the expansion the remote defines; `echo $HOME` is run exactly when the path needs it, and its failure is returned |
| ConfcoveServer.HomeQueriedIffToken | confcove_server.py:156-161 | the remote home is asked for if and only if the path holds `~` or `$HOME` |
| ConfcoveServer.PlainPathUnchanged | confcove_server.py:165-166 | a path without `~` and `$HOME` is returned unchanged, with no command run |
| ConfcoveServer.StripNewline | confcove_server.py:162 | stripping drops the newline `echo` prints after a home without surrounding space |
| ConfcoveServer.HomeRelativeResolved | confcove_server.py:155-164 | for a `<rest>` holding neither `~` nor `$`, `~<rest>` resolves to the stripped home followed by `<rest>` |
| ConfcoveServer.TildeExample | confcove_server.py:155-164 | `~/.bashrc` with home `/home/alice` gives `/home/alice/.bashrc` |
| ConfcoveServer.ExpansionRemovesTokens | confcove_server.py:156-164 | with an absolute home free of `~` and `$`, the expanded path holds neither `~` nor `$HOME` |
| ConfcoveServer.ExpansionCanRebuildToken | confcove_server.py:164 | without that condition the replacement can create a new `$HOME` |
| ConfcoveServer.ListRemoteFiles | confcove_server.py:89-104 | the directory test runs first; a directory is listed with `find`, anything else with `ls -d`; the output is split into lines; an exception raised by `exec_command` is returned; the session's command log grows by the test and, unless the test raised, the listing command |
| ConfcoveServer.Destination | confcove_server.py:114-117 | under an entry ending in `/`, the local base followed by the whole remote path; otherwise `os.path.join` of the base and the remote path without its first character, so a remainder starting with `/` replaces the base, and any other remainder follows the base |
| ConfcoveServer.DestinationKeepsRemotePath | confcove_server.py:114-117 | for a remote path with one leading `/`, both branches place the file at the local base followed by the remote path |
| ConfcoveServer.DestinationInjective | confcove_server.py:114-117 | two different such remote files never share a destination |
| ConfcoveServer.DirectoryEntryKeepsStructure | confcove_server.py:114-115 | under an entry ending in `/`, the full remote path is appended to the local base |
| ConfcoveServer.DestinationStripBranchExamples | confcove_server.py:116-117 | the strip branch follows `os.path.join`: `//etc/hosts` replaces the base, and `notes.txt` loses its first letter |
| ConfcoveServer.FetchOne | confcove_server.py:113-132 | one file: the parent directory is made, and the transfer's bytes are written at the destination or its error is recorded |
| ConfcoveServer.DownloadFiles | confcove_server.py:107-133 | without an SFTP failure, every file is attempted in order and the local tree is the old one with the saved files written in turn; an SFTP failure changes nothing; the channel is closed at the end |
| ConfcoveServer.AttemptsInOrder | confcove_server.py:112-132 | each file of the batch has exactly one outcome, in order, at its destination, saved if and only if its own transfer succeeds |
| ConfcoveServer.MirrorUntouched | confcove_server.py:124-126 | in the model, a local path no saved outcome names keeps its content (the source can empty a path named by a failed outcome, see "## Left out") |
| ConfcoveServer.MirrorLastWriteWins | confcove_server.py:125 | a saved path holds the bytes of the last transfer to it |
| ConfcoveServer.MirrorAppend | confcove_server.py:112-125 | writing two runs of outcomes in turn is writing their concatenation |
| ConfcoveServer.ProcessTrackedFiles | confcove_server.py:137-147 | the manifest is read and each line is listed and downloaded in order; the local tree holds exactly the outcomes' writes; the first exception ends the work; the commands run are the `cat` of the manifest, then the listing commands of every line up to and including the first that raises |
| ConfcoveServer.ProcessLines | confcove_server.py:144-147 | the lines are processed in order until the last one or the first exception, as the specification says; the tree gets the outcomes in order; the command log grows by the listing commands of the lines reached |
| ConfcoveServer.ProcessEntry | confcove_server.py:145-147 | one line is listed, then its files are downloaded: the result is that line's step; a line that raises leaves the tree unchanged; the command log grows by the line's listing commands |
| ConfcoveServer.ReachedAtFault | confcove_server.py:144-147 | when every line before line `i` succeeds and line `i` raises, the loop reaches exactly `i + 1` lines |
| ConfcoveServer.ReachedAll | confcove_server.py:144-147 | when no line raises, the loop reaches every line |
| ConfcoveServer.CollectStopsAtFault | confcove_server.py:144-147 | once a line fails, the later lines change nothing |
| ConfcoveServer.CollectFromSteps | confcove_server.py:144-147 | every outcome comes from the batch of a line that succeeded |
| ConfcoveServer.CollectComplete | confcove_server.py:144-147 | the loop ends without an exception if and only if every line succeeds, and then every outcome of every line is kept |
| ConfcoveServer.EntryStepAttempts | confcove_server.py:146-147 | a line that succeeds yields the attempts on exactly the files its listing names, with the raw line as remote base |
| ConfcoveServer.OutcomesFromEntries | confcove_server.py:144-147 | every outcome is a file listed for some manifest line, placed by the destination rule with that line as base |
| ConfcoveServer.EntriesComplete | confcove_server.py:144-147 | without an exception, every file listed for every line has an outcome at its destination |
| ConfcoveServer.EntriesStopAtFault | confcove_server.py:144-147 | a failing line ends the work with the outcomes of the lines before it and its own exception |
| ConfcoveServer.Field | confcove_server.py:174-177 | an optional field is present if and only if the machine or the defaults have it, and then it is the value of the dictionary union in which the machine overrides the defaults |
| ConfcoveServer.BackupMachine | confcove_server.py:171-192 | the result and the local tree are those of the machine's specification; a session exists if and only if both keys are present and the connection succeeds; it is the connection's session, it is closed when the method returns, and the commands run on it are `echo $HOME` when the tracked path needs the home, then, when the path is set and expands, those of `process_tracked_files` |
| ConfcoveServer.ConnectionFailureSkips | confcove_server.py:180-183 | a machine that cannot be connected to is skipped with no output |
| ConfcoveServer.RunStopsAtCrash | confcove_server.py:211-212 | after a machine crashes, the later machines change nothing |
| ConfcoveServer.RunSpecReached | confcove_server.py:211-212 | a run that ended after the last machine or at the first crash is the whole run |
| ConfcoveServer.BackupNext | confcove_server.py:211-212 | one iteration: the machine's result is its specification; a session is opened for it if and only if it has both `name` and `host` and the connection succeeds, and that session is closed |
| ConfcoveServer.RunMachines | confcove_server.py:211-212 | machines are backed up in order until the last one or the first crash; the local tree gets their outcomes in order; one status per machine reached; a session is opened for the `k`-th machine if and only if it has both `name` and `host` and the connection succeeds, and every session opened is closed |
| ConfcoveServer.BackupAll | confcove_server.py:206-212 | an empty machine list does nothing and opens no session; otherwise the statuses and the local tree are those of the run's specification, there is one session slot per status, a session is opened for a machine if and only if it has both `name` and `host` and the connection succeeds, and every session is closed |
| ConfcoveServer.RunInOrder | confcove_server.py:211-212 | statuses follow inventory order; only the last one reported can be a crash; a run that ends early ends on a crash |
| ConfcoveServer.ConnectionFailureIsolated | confcove_server.py:211-212 | when the first machine cannot be reached, the second machine is still backed up in full |
| PosixPath.Join | confcove_server.py:117 | an absolute second part replaces the first; otherwise the result is the first part, then a `/` exactly when the first part is non-empty and does not end in one, then the second part |
| PosixPath.Dirname | confcove_server.py:120 | the directory is the path up to its last `/`, less the slashes that end it unless it consists of slashes only; empty exactly when the path has no `/` |

## Left out

- Logging (`CustomFormatter`, `setup_logging` and every `logger` call, confcove_server.py:17-63). The model has no log lines. Where a message matters, the `Status`, `Outcome` or `Fault` value carries it.
- `connect_ssh` (confcove_server.py:66-86) is the `connect` parameter. It maps a machine's credentials to a remote machine, or to `None` when connecting fails. Authentication, key expansion and the 10-second timeout happen inside it.
- Reading the inventory (confcove_server.py:197-204): the file read, dropping `//` comment lines, JSON parsing and the missing-file branch. `BackupAll` starts from the parsed `Inventory`. Its records are string-valued maps.
- The client's command line (confcove_client.py:61-67). Also the creation of the manifest's parent directory (line 22) and the manifest's fixed location (line 7). The manifest's text goes in and the new text comes out.
- `os.path.expanduser`, `os.path.abspath`, `os.path.isfile`/`isdir` and `glob.glob` are uninterpreted functions of `LocalHost`. Their internals, including the order of glob matches, are not modelled. What the lemmas assume of the first two is `Normalises`: `abspath` never yields an empty path, and neither function adds a line boundary to a path without one.
- Shell quoting of the remote commands. Commands are `Command` values, so a path holding `"` or shell syntax is not modelled as altering the command. `stderr` is ignored, as in the source. Output decoding is not modelled: outputs are strings.
- `ConfcoveServer.FetchOne` and `ConfcoveServer.MirrorUntouched`: `sftp.get` opens the local file for writing before it reads the remote one, so a transfer that fails (file not found, permission denied, a broken connection) empties or truncates an earlier backup at its destination. The model writes only on success, so `MirrorUntouched` holds for the source only for paths that no failed outcome names.
- `ConfcoveServer.FetchOne` and `ConfcoveServer.Attempt`: a local failure of `sftp.get` is not modelled. The destination may already be a directory, or a component of its directory may be a regular file (line 121 then skips `os.makedirs`). The source catches the resulting exception and logs it; the model's store does not tell files from directories, so it records such a transfer as saved.
- `LocalStore.MakeDirs`: does not model a failure of `os.makedirs`. The existence test on line 121 is modelled by the store's set of directories. The local base is `os.path.join('/opt/ConfigCove_repo', name)`, which is absolute whatever the name. So every destination starts with `/`, and the `os.makedirs('')` that an empty directory would raise cannot occur.
- `Session.Get`: transfers do not appear in the session's command log, which records only shell commands.
- `ConfcoveClient.AddedEntriesPlain`, `ConfcoveClient.RegistrationAdditive` and `ConfcoveClient.SuccessiveRegistrations`: a file name holding a line boundary is not excluded by the source, which writes it into the manifest and reads it back as several entries. The lemmas state their conclusions for runs whose entries are line-free (`PlainEntries`), and `AddedEntriesPlain` shows that a run whose inputs and pattern matches are line-free (`PlainInputs`) is such a run.
- `ConfcoveServer.BackupMachine`: the session is a return value so its final state can be stated. In the source it is a local variable.

=== FILE: client.dfy ===
/** Manifest registration on the authoring machine: `track_files_or_directories`
    in confcove_client.py. The local filesystem and Python's path library are
    the capabilities of a `LocalHost`; the manifest file is read once at the
    start (None when it does not exist) and written once at the end. */
module ConfcoveClient {
  import opened Wrappers
  import opened PyStr
  import opened Ordering

  /** What `os.path.isfile` / `os.path.isdir` say about a path. */
  datatype Kind = RegularFile | Directory | Neither

  /** The authoring machine as the registration code sees it. */
  datatype LocalHost = LocalHost(
    expandUser: string -> string,   // os.path.expanduser
    absPath: string -> string,      // os.path.abspath
    kind: string -> Kind,           // os.path.isfile, os.path.isdir
    glob: string -> seq<string>)    // glob.glob(pattern, recursive=True)

  /** The lines the registration prints. */
  datatype Message =
    | TrackedFile(path: string)
    | TrackedDirectory(path: string)
    | TrackedFromPattern(path: string)
    | NoMatches(input: string)

  /** `get_absolute_path`: `expanduser`, then `abspath`. */
  function AbsolutePath(h: LocalHost, p: string): (r: string)
    ensures Normalises(h) ==> r != []
    ensures Normalises(h) && LineFree(p) ==> LineFree(r)
  {
    h.absPath(h.expandUser(p))
  }

  /** What `os.path.expanduser` and `os.path.abspath` do with line boundaries:
      `abspath` never yields an empty path, and neither adds a line boundary
      to a path without one (the home directory holds none). */
  ghost predicate Normalises(h: LocalHost)
  {
    (forall p :: h.absPath(p) != []) &&
    (forall p :: LineFree(p) ==> LineFree(h.absPath(p))) &&
    (forall p :: LineFree(p) ==> LineFree(h.expandUser(p)))
  }

  /** A host shaped like the real one meets `Normalises`: `expanduser` puts a
      home without line boundaries in place of a leading `~`, and `abspath`
      puts a working directory in front of a relative path. */
  lemma {:induction false} NormalisesLikePython(home: string, cwd: string, kind: string -> Kind,
                                               glob: string -> seq<string>)
    requires LineFree(home) && LineFree(cwd) && cwd != []
    ensures Normalises(LocalHost(
      p => if p != [] && p[0] == '~' then home + p[1..] else p,
      p => if p != [] && p[0] == '/' then p else cwd + "/" + p,
      kind, glob))
  {
    var h := LocalHost(
      p => if p != [] && p[0] == '~' then home + p[1..] else p,
      p => if p != [] && p[0] == '/' then p else cwd + "/" + p,
      kind, glob);
    forall p | LineFree(p)
      ensures LineFree(h.absPath(p)) && LineFree(h.expandUser(p))
    {
      if p != [] && p[0] == '~' {
        var e := home + p[1..];
        forall i | 0 <= i < |e| ensures !IsLineBreak(e[i]) {
          if i >= |home| { assert e[i] == p[i - |home| + 1]; }
        }
      }
      if !(p != [] && p[0] == '/') {
        var a := cwd + "/" + p;
        forall i | 0 <= i < |a| ensures !IsLineBreak(a[i]) {
          if i > |cwd| { assert a[i] == p[i - |cwd| - 1]; }
        }
      }
    }
  }

  /** The run's inputs, and the names every pattern among them matches,
      hold no line boundary. */
  ghost predicate PlainInputs(h: LocalHost, paths: seq<string>)
  {
    forall i :: 0 <= i < |paths| ==>
      LineFree(paths[i]) && forall m :: m in h.glob(AbsolutePath(h, paths[i])) ==> LineFree(m)
  }

  /** Every entry the run adds can be stored as one manifest line. */
  ghost predicate PlainEntries(h: LocalHost, paths: seq<string>)
  {
    forall x :: x in AddedAll(h, paths) ==> x != [] && LineFree(x)
  }

  /** The entries of a manifest text as a set. */
  function Parse(text: string): (entries: set<string>)
  {
    set line | line in SplitLines(text)
  }

  /** The entry set read from the manifest, `set(f.read().splitlines())`, or
      the empty set when the manifest does not exist. */
  function StoredEntries(existing: Option<string>): (s: set<string>)
    ensures forall e :: e in s ==> LineFree(e)
    ensures existing.None? ==> s == {}
    ensures existing.Some? ==> s == Parse(existing.value)
  {
    match existing
    case None => {}
    case Some(text) =>
      SplitLinesLineFree(text);
      Parse(text)
  }

  /** The text written back: `"\n".join(sorted(entries))`. */
  function Serialise(entries: set<string>): (text: string)
  {
    JoinLines(Canonical(entries))
  }

  function MatchEntry(h: LocalHost, m: string): (added: set<string>)
  {
    var a := AbsolutePath(h, m);
    if h.kind(a) == RegularFile then {a} else {}
  }

  function MatchMessages(h: LocalHost, m: string): (msgs: seq<Message>)
  {
    var a := AbsolutePath(h, m);
    if h.kind(a) == RegularFile then [TrackedFromPattern(a)] else []
  }

  /** Entries contributed by the matches of a pattern: the regular files among them. */
  function PatternFiles(h: LocalHost, matches: seq<string>): (added: set<string>)
  {
    if matches == [] then {}
    else PatternFiles(h, matches[..|matches| - 1]) + MatchEntry(h, matches[|matches| - 1])
  }

  function PatternMessages(h: LocalHost, matches: seq<string>): (msgs: seq<Message>)
  {
    if matches == [] then []
    else PatternMessages(h, matches[..|matches| - 1]) + MatchMessages(h, matches[|matches| - 1])
  }

  /** Entries one input contributes (confcove_client.py, lines 33-54). */
  function AddedBy(h: LocalHost, p: string): (added: set<string>)
  {
    var a := AbsolutePath(h, p);
    match h.kind(a)
    case RegularFile => {a}
    case Directory => {a + "/"}
    case Neither => PatternFiles(h, h.glob(a))
  }

  /** Lines one input prints. */
  function ReportFor(h: LocalHost, p: string): (msgs: seq<Message>)
  {
    var a := AbsolutePath(h, p);
    match h.kind(a)
    case RegularFile => [TrackedFile(a)]
    case Directory => [TrackedDirectory(a + "/")]
    case Neither =>
      var matches := h.glob(a);
      if matches != [] then PatternMessages(h, matches) else [NoMatches(p)]
  }

  function AddedAll(h: LocalHost, paths: seq<string>): (added: set<string>)
  {
    if paths == [] then {}
    else AddedAll(h, paths[..|paths| - 1]) + AddedBy(h, paths[|paths| - 1])
  }

  /** `f` applied to each element of `xs`, the results concatenated in order. */
  function ConcatMap<T, U>(f: T -> seq<U>, xs: seq<T>): (ys: seq<U>)
  {
    if xs == [] then []
    else ConcatMap(f, xs[..|xs| - 1]) + f(xs[|xs| - 1])
  }

  /** The lines printed for `paths`, input after input. */
  function ReportAll(h: LocalHost, paths: seq<string>): (msgs: seq<Message>)
  {
    ConcatMap(p => ReportFor(h, p), paths)
  }

  /** The entry set after registering `paths` on top of `stored`. */
  function Registered(h: LocalHost, stored: set<string>, paths: seq<string>): (entries: set<string>)
  {
    stored + AddedAll(h, paths)
  }

  /** `track_files_or_directories(paths)`: returns the text written to the
      manifest and the lines printed. */
  method TrackFilesOrDirectories(h: LocalHost, existing: Option<string>, paths: seq<string>)
    returns (written: string, log: seq<Message>)
    ensures written == Serialise(Registered(h, StoredEntries(existing), paths))
    ensures log == ReportAll(h, paths)
  {
    var entries: set<string>;
    if existing.Some? {
      entries := Parse(existing.value);
    } else {
      entries := {};
    }
    log := [];
    var i := 0;
    while i < |paths|
      invariant 0 <= i <= |paths|
      invariant entries == Registered(h, StoredEntries(existing), paths[..i])
      invariant log == ReportAll(h, paths[..i])
    {
      entries, log := TrackOne(h, paths[i], entries, log);
      RegisteredStep(h, StoredEntries(existing), paths, i);
      i := i + 1;
    }
    assert paths[..i] == paths;
    written := JoinLines(Canonical(entries));
  }

  /** One input of the loop (confcove_client.py, lines 33-54): a regular file is
      added as is, a directory with a trailing `/`, anything else is expanded as
      a pattern, and a pattern that matches nothing prints an error. */
  method TrackOne(h: LocalHost, path: string, entries0: set<string>, log0: seq<Message>)
    returns (entries: set<string>, log: seq<Message>)
    ensures entries == entries0 + AddedBy(h, path)
    ensures log == log0 + ReportFor(h, path)
  {
    entries, log := entries0, log0;
    var absPath := AbsolutePath(h, path);
    var kind := h.kind(absPath);
    if kind == RegularFile {
      entries := entries + {absPath};
      log := log + [TrackedFile(absPath)];
    } else if kind == Directory {
      entries := entries + {absPath + "/"};
      log := log + [TrackedDirectory(absPath + "/")];
    } else {
      var matches := h.glob(absPath);
      if matches != [] {
        entries, log := TrackMatches(h, matches, entries, log);
      } else {
        log := log + [NoMatches(path)];
      }
    }
  }

  lemma RegisteredStep(h: LocalHost, stored: set<string>, paths: seq<string>, i: nat)
    requires i < |paths|
    ensures Registered(h, stored, paths[..i + 1]) == Registered(h, stored, paths[..i]) + AddedBy(h, paths[i])
    ensures ReportAll(h, paths[..i + 1]) == ReportAll(h, paths[..i]) + ReportFor(h, paths[i])
  {
    var pre := paths[..i + 1];
    assert pre[..|pre| - 1] == paths[..i];
    assert pre[|pre| - 1] == paths[i];
  }

  /** The loop over a pattern's matches (confcove_client.py, lines 48-52). */
  method TrackMatches(h: LocalHost, matches: seq<string>, entries0: set<string>, log0: seq<Message>)
    returns (entries: set<string>, log: seq<Message>)
    ensures entries == entries0 + PatternFiles(h, matches)
    ensures log == log0 + PatternMessages(h, matches)
  {
    entries, log := entries0, log0;
    var j := 0;
    while j < |matches|
      invariant 0 <= j <= |matches|
      invariant entries == entries0 + PatternFiles(h, matches[..j])
      invariant log == log0 + PatternMessages(h, matches[..j])
    {
      assert matches[..j + 1][..j] == matches[..j];
      var matchAbs := AbsolutePath(h, matches[j]);
      if h.kind(matchAbs) == RegularFile {
        entries := entries + {matchAbs};
        log := log + [TrackedFromPattern(matchAbs)];
      }
      j := j + 1;
    }
    assert matches[..j] == matches;
  }

  // ---- What a registration adds ----

  /** A pattern contributes exactly the absolute forms of its matches that are regular files. */
  lemma {:induction false} PatternFilesExactly(h: LocalHost, matches: seq<string>, x: string)
    ensures x in PatternFiles(h, matches) <==>
      exists i :: 0 <= i < |matches| && x == AbsolutePath(h, matches[i]) && h.kind(x) == RegularFile
  {
    if matches != [] {
      var init := matches[..|matches| - 1];
      PatternFilesExactly(h, init, x);
      if x in PatternFiles(h, init) {
        var i :| 0 <= i < |init| && x == AbsolutePath(h, init[i]) && h.kind(x) == RegularFile;
        assert matches[i] == init[i];
      }
      if exists i :: 0 <= i < |matches| && x == AbsolutePath(h, matches[i]) && h.kind(x) == RegularFile {
        var i :| 0 <= i < |matches| && x == AbsolutePath(h, matches[i]) && h.kind(x) == RegularFile;
        if i < |init| {
          assert init[i] == matches[i];
        }
      }
    }
  }

  /** Every entry a registration adds names an existing regular file, or an
      existing directory followed by `/`. */
  lemma {:induction false} AddedEntriesExist(h: LocalHost, paths: seq<string>)
    ensures forall x :: x in AddedAll(h, paths) ==>
      h.kind(x) == RegularFile ||
      (|x| > 0 && x[|x| - 1] == '/' && h.kind(x[..|x| - 1]) == Directory)
  {
    if paths != [] {
      AddedEntriesExist(h, paths[..|paths| - 1]);
      var p := paths[|paths| - 1];
      var a := AbsolutePath(h, p);
      forall x | x in AddedBy(h, p)
        ensures h.kind(x) == RegularFile ||
          (|x| > 0 && x[|x| - 1] == '/' && h.kind(x[..|x| - 1]) == Directory)
      {
        if h.kind(a) == Directory {
          assert (a + "/")[..|a|] == a;
        } else if h.kind(a) == Neither {
          PatternFilesExactly(h, h.glob(a), x);
        }
      }
    }
  }

  /** A directory is stored with a trailing `/` and never under its bare path. */
  lemma DirectoryEntryHasSlash(h: LocalHost, p: string)
    requires h.kind(AbsolutePath(h, p)) == Directory
    ensures AddedBy(h, p) == {AbsolutePath(h, p) + "/"}
    ensures AbsolutePath(h, p) !in AddedBy(h, p)
    ensures ReportFor(h, p) == [TrackedDirectory(AbsolutePath(h, p) + "/")]
  {
  }

  /** A pattern whose matches are all directories adds nothing and prints nothing. */
  lemma {:induction false} PatternSkipsDirectories(h: LocalHost, matches: seq<string>)
    requires forall i :: 0 <= i < |matches| ==> h.kind(AbsolutePath(h, matches[i])) != RegularFile
    ensures PatternFiles(h, matches) == {}
    ensures PatternMessages(h, matches) == []
  {
    if matches != [] {
      PatternSkipsDirectories(h, matches[..|matches| - 1]);
    }
  }

  lemma AddedAllLast(h: LocalHost, s: seq<string>)
    requires s != []
    ensures AddedAll(h, s) == AddedAll(h, s[..|s| - 1]) + AddedBy(h, s[|s| - 1])
  {
  }

  lemma {:induction false} AddedAllAppend(h: LocalHost, ps: seq<string>, qs: seq<string>)
    ensures AddedAll(h, ps + qs) == AddedAll(h, ps) + AddedAll(h, qs)
    decreases |qs|
  {
    if qs == [] {
      assert ps + qs == ps;
    } else {
      var init := qs[..|qs| - 1];
      var all := ps + qs;
      assert all[..|all| - 1] == ps + init && all[|all| - 1] == qs[|qs| - 1];
      AddedAllAppend(h, ps, init);
      AddedAllLast(h, all);
      AddedAllLast(h, qs);
    }
  }

  lemma {:induction false} ConcatMapAppend<T, U>(f: T -> seq<U>, xs: seq<T>, ys: seq<T>)
    ensures ConcatMap(f, xs + ys) == ConcatMap(f, xs) + ConcatMap(f, ys)
    decreases |ys|
  {
    if ys == [] {
      assert xs + ys == xs;
    } else {
      var init := ys[..|ys| - 1];
      var all := xs + ys;
      assert all[..|all| - 1] == xs + init && all[|all| - 1] == ys[|ys| - 1];
      ConcatMapAppend(f, xs, init);
    }
  }

  lemma ReportAllAppend(h: LocalHost, ps: seq<string>, qs: seq<string>)
    ensures ReportAll(h, ps + qs) == ReportAll(h, ps) + ReportAll(h, qs)
  {
    ConcatMapAppend(p => ReportFor(h, p), ps, qs);
  }

  /** An input that does not exist and matches nothing adds no entry, prints one
      error line naming the input as given, and the other inputs are registered
      as if it were absent. */
  lemma NoMatchesSkipped(h: LocalHost, ps: seq<string>, p: string, qs: seq<string>)
    requires h.kind(AbsolutePath(h, p)) == Neither && h.glob(AbsolutePath(h, p)) == []
    ensures AddedBy(h, p) == {}
    ensures ReportFor(h, p) == [NoMatches(p)]
    ensures AddedAll(h, ps + [p] + qs) == AddedAll(h, ps + qs)
    ensures ReportAll(h, ps + [p] + qs) == ReportAll(h, ps) + [NoMatches(p)] + ReportAll(h, qs)
  {
    AddedAllAppend(h, ps + [p], qs);
    AddedAllAppend(h, ps, [p]);
    AddedAllAppend(h, ps, qs);
    ReportAllAppend(h, ps + [p], qs);
    ReportAllAppend(h, ps, [p]);
    assert AddedAll(h, [p]) == AddedBy(h, p) by { assert [p][..0] == []; }
    assert ReportAll(h, [p]) == ReportFor(h, p) by { assert [p][..0] == []; }
  }

  /** An entry is added exactly when some input contributes it. */
  lemma {:induction false} AddedAllExactly(h: LocalHost, paths: seq<string>, x: string)
    ensures x in AddedAll(h, paths) <==> exists i :: 0 <= i < |paths| && x in AddedBy(h, paths[i])
  {
    if paths != [] {
      var init := paths[..|paths| - 1];
      AddedAllExactly(h, init, x);
      if x in AddedAll(h, init) {
        var i :| 0 <= i < |init| && x in AddedBy(h, init[i]);
        assert paths[i] == init[i];
      }
      if exists i :: 0 <= i < |paths| && x in AddedBy(h, paths[i]) {
        var i :| 0 <= i < |paths| && x in AddedBy(h, paths[i]);
        if i < |init| {
          assert init[i] == paths[i];
        }
      }
    }
  }

  /** The written manifest does not depend on the order (or repetition) of the inputs. */
  lemma RegistrationOrderIrrelevant(h: LocalHost, stored: set<string>, ps: seq<string>, qs: seq<string>)
    requires forall p :: p in ps <==> p in qs
    ensures Serialise(Registered(h, stored, ps)) == Serialise(Registered(h, stored, qs))
  {
    forall x
      ensures x in AddedAll(h, ps) <==> x in AddedAll(h, qs)
    {
      AddedAllExactly(h, ps, x);
      AddedAllExactly(h, qs, x);
      if exists i :: 0 <= i < |ps| && x in AddedBy(h, ps[i]) {
        var i :| 0 <= i < |ps| && x in AddedBy(h, ps[i]);
        assert ps[i] in qs;
      }
      if exists i :: 0 <= i < |qs| && x in AddedBy(h, qs[i]) {
        var i :| 0 <= i < |qs| && x in AddedBy(h, qs[i]);
        assert qs[i] in ps;
      }
    }
    assert AddedAll(h, ps) == AddedAll(h, qs);
  }

  /** Registering the same regular file twice on an empty manifest writes exactly
      one line, its absolute path. */
  lemma TrackSameFileTwice(h: LocalHost, p: string)
    requires h.kind(AbsolutePath(h, p)) == RegularFile
    ensures Serialise(Registered(h, StoredEntries(None), [p, p])) == AbsolutePath(h, p)
  {
    var a := AbsolutePath(h, p);
    assert AddedBy(h, p) == {a};
    assert AddedAll(h, [p]) == {a} by { assert [p][..0] == []; }
    assert AddedAll(h, [p, p]) == {a} by { assert [p, p][..1] == [p]; }
    assert Registered(h, StoredEntries(None), [p, p]) == {a};
    var r := Canonical({a});
    assert r[0] in {a};
  }

  // ---- The written manifest ----

  /** With the real normaliser every entry is non-empty, and entries of a run
      whose inputs and matches are line-free are line-free too. */
  lemma {:induction false} AddedEntriesPlain(h: LocalHost, paths: seq<string>)
    requires Normalises(h)
    ensures forall x :: x in AddedAll(h, paths) ==> x != []
    ensures PlainInputs(h, paths) ==> PlainEntries(h, paths)
  {
    forall x | x in AddedAll(h, paths)
      ensures x != [] && (PlainInputs(h, paths) ==> LineFree(x))
    {
      AddedAllExactly(h, paths, x);
      var i :| 0 <= i < |paths| && x in AddedBy(h, paths[i]);
      var a := AbsolutePath(h, paths[i]);
      if h.kind(a) == Neither {
        PatternFilesExactly(h, h.glob(a), x);
      }
    }
  }

  /** The last line of a strictly sorted list of two or more is never empty. */
  lemma LastNotBlank(lines: seq<string>)
    requires StrictlySorted(lines) && |lines| >= 2
    ensures lines[|lines| - 1] != []
  {
    assert Below(lines[0], lines[|lines| - 1]);
  }

  /** A written manifest holds the entries one per line, in sorted order. */
  lemma SerialiseLines(entries: set<string>)
    requires forall e :: e in entries ==> LineFree(e)
    requires entries != {""}
    ensures SplitLines(Serialise(entries)) == Canonical(entries)
  {
    var lines := Canonical(entries);
    if |lines| >= 2 {
      LastNotBlank(lines);
    } else if |lines| == 1 {
      assert lines[0] in entries;
      assert entries == {lines[0]};
    }
    forall i | 0 <= i < |lines|
      ensures LineFree(lines[i])
    {
      assert lines[i] in entries;
    }
    SplitJoin(lines);
  }

  /** Reading back a written manifest gives its entries in sorted order, hence the
      same set, as long as no entry holds a line boundary and the set is not the
      lone empty entry. */
  lemma SerialiseRoundTrip(entries: set<string>)
    requires forall e :: e in entries ==> LineFree(e)
    requires entries != {""}
    ensures SplitLines(Serialise(entries)) == Canonical(entries)
    ensures Parse(Serialise(entries)) == entries
  {
    SerialiseLines(entries);
  }

  /** The one set that does not survive: `"\n".join([""])` is empty, which reads back as no entries. */
  lemma SerialiseLosesLoneBlank()
    ensures Serialise({""}) == ""
    ensures Parse(Serialise({""})) == {}
  {
    var r := Canonical({""});
    assert r[0] in {""};
  }

  /** The written manifest reads back sorted and without duplicate lines. */
  lemma WrittenManifestCanonical(entries: set<string>)
    requires forall e :: e in entries ==> LineFree(e)
    ensures StrictlySorted(SplitLines(Serialise(entries)))
  {
    if entries == {""} {
      SerialiseLosesLoneBlank();
    } else {
      SerialiseRoundTrip(entries);
    }
  }

  /** Registration is additive: every line of the old manifest is a line of
      the new one, and so is every added entry, as long as the entries added
      can be stored one per line. The one exception is a blank old line when
      the new entry set is `{""}`, which is written as the empty text (see
      `SerialiseLosesLoneBlank`). */
  lemma RegistrationAdditive(h: LocalHost, existing: Option<string>, paths: seq<string>)
    requires PlainEntries(h, paths)
    ensures forall e ::
      (e in StoredEntries(existing) &&
       (e != [] || Registered(h, StoredEntries(existing), paths) != {""})) ==>
      e in SplitLines(Serialise(Registered(h, StoredEntries(existing), paths)))
    ensures forall e :: e in AddedAll(h, paths) ==>
      e in SplitLines(Serialise(Registered(h, StoredEntries(existing), paths)))
  {
    var entries := Registered(h, StoredEntries(existing), paths);
    if entries != {""} {
      SerialiseRoundTrip(entries);
    }
  }

  /** Two registrations in a row, by separate runs that may see a different
      working directory and filesystem (`h1`, then `h2`), keep what both
      added: in the second entry set and, when the second run's entries can
      be stored one per line too, as lines of the second manifest written. */
  lemma SuccessiveRegistrations(h1: LocalHost, h2: LocalHost, existing: Option<string>,
                                ps: seq<string>, qs: seq<string>)
    requires PlainEntries(h1, ps)
    ensures var first := Serialise(Registered(h1, StoredEntries(existing), ps));
      AddedAll(h1, ps) + AddedAll(h2, qs) <= Registered(h2, StoredEntries(Some(first)), qs)
    ensures var first := Serialise(Registered(h1, StoredEntries(existing), ps));
      var second := Serialise(Registered(h2, StoredEntries(Some(first)), qs));
      PlainEntries(h2, qs) ==>
        forall e :: e in AddedAll(h1, ps) + AddedAll(h2, qs) ==> e in SplitLines(second)
  {
    var entries := Registered(h1, StoredEntries(existing), ps);
    if entries != {""} {
      SerialiseRoundTrip(entries);
    }
    var first := Serialise(entries);
    if PlainEntries(h2, qs) {
      RegistrationAdditive(h2, Some(first), qs);
    }
  }
}

=== FILE: ordering.dfy ===
/** Python's ordering of `str` values (code point by code point, a proper prefix
    first) and `sorted` applied to a set of strings. */
module Ordering {

  /** `a < b` on Python strings. */
  predicate Below(a: string, b: string)
  {
    if a == [] then b != []
    else b != [] && (a[0] < b[0] || (a[0] == b[0] && Below(a[1..], b[1..])))
  }

  lemma {:induction false} BelowIrreflexive(a: string)
    ensures !Below(a, a)
  {
    if a != [] {
      BelowIrreflexive(a[1..]);
    }
  }

  lemma {:induction false} BelowTransitive(a: string, b: string, c: string)
    requires Below(a, b) && Below(b, c)
    ensures Below(a, c)
  {
    if a != [] && a[0] == b[0] && b[0] == c[0] {
      BelowTransitive(a[1..], b[1..], c[1..]);
    }
  }

  lemma {:induction false} BelowTotal(a: string, b: string)
    requires a != b
    ensures Below(a, b) || Below(b, a)
  {
    if a != [] && b != [] && a[0] == b[0] {
      assert a == [a[0]] + a[1..] && b == [b[0]] + b[1..];
      BelowTotal(a[1..], b[1..]);
    }
  }

  lemma {:induction false} BelowAsymmetric(a: string, b: string)
    requires Below(a, b)
    ensures !Below(b, a)
  {
    if a != [] && b != [] && a[0] == b[0] {
      BelowAsymmetric(a[1..], b[1..]);
    }
  }

  /** Every element is strictly below the ones after it: sorted and without duplicates. */
  predicate StrictlySorted(s: seq<string>)
  {
    forall i, j :: 0 <= i < j < |s| ==> Below(s[i], s[j])
  }

  predicate IsLeast(m: string, s: set<string>)
  {
    m in s && forall x :: x in s && x != m ==> Below(m, x)
  }

  lemma {:induction false} LeastExists(s: set<string>)
    requires s != {}
    ensures exists m :: IsLeast(m, s)
    decreases |s|
  {
    var x :| x in s;
    if s == {x} {
      assert IsLeast(x, s);
    } else {
      LeastExists(s - {x});
      var m :| IsLeast(m, s - {x});
      if Below(m, x) {
        forall y | y in s && y != m
          ensures Below(m, y)
        {
          if y == x {
          } else {
            assert y in s - {x};
          }
        }
        assert IsLeast(m, s);
      } else {
        BelowTotal(m, x);
        forall y | y in s && y != x
          ensures Below(x, y)
        {
          if y != m {
            assert y in s - {x};
            BelowTransitive(x, m, y);
          }
        }
        assert IsLeast(x, s);
      }
    }
  }

  lemma LeastUnique(s: set<string>)
    ensures forall m, n :: IsLeast(m, s) && IsLeast(n, s) ==> m == n
  {
    forall m, n | IsLeast(m, s) && IsLeast(n, s)
      ensures m == n
    {
      if m != n {
        BelowAsymmetric(m, n);
      }
    }
  }

  /** `sorted(s)` for a set of strings: its elements in increasing order, each once. */
  function Canonical(s: set<string>): (r: seq<string>)
    ensures StrictlySorted(r)
    ensures forall x :: x in r <==> x in s
    ensures |r| == |s|
    decreases |s|
  {
    if s == {} then []
    else
      LeastExists(s);
      LeastUnique(s);
      var m :| IsLeast(m, s);
      var rest := Canonical(s - {m});
      assert forall j :: 0 <= j < |rest| ==> Below(m, rest[j]) by {
        forall j | 0 <= j < |rest|
          ensures Below(m, rest[j])
        {
          assert rest[j] in s - {m};
        }
      }
      [m] + rest
  }
}

=== FILE: posixpath.dfy ===
/** The two `os.path` functions the backup applies to local paths, with POSIX
    separators: `join` of two components and `dirname`. */
module PosixPath {

  /** `os.path.join(a, b)`: an absolute `b` replaces `a`; otherwise one `/`
      separates them unless `a` is empty or already ends with one. */
  function Join(a: string, b: string): (r: string)
    ensures b != [] && b[0] == '/' ==> r == b
    ensures (b == [] || b[0] != '/') ==> |a| + |b| <= |r| && r[..|a|] == a && r[|r| - |b|..] == b
    ensures (b == [] || b[0] != '/') && a != [] && a[|a| - 1] != '/' ==> |r| == |a| + 1 + |b| && r[|a|] == '/'
    ensures (b == [] || b[0] != '/') && (a == [] || a[|a| - 1] == '/') ==> |r| == |a| + |b|
  {
    if b != [] && b[0] == '/' then b
    else if a == [] || a[|a| - 1] == '/' then a + b
    else a + "/" + b
  }

  /** `p.rfind('/') + 1`. */
  function AfterLastSlash(p: string): (n: nat)
    ensures n <= |p|
    ensures n > 0 ==> p[n - 1] == '/'
    ensures forall i :: n <= i < |p| ==> p[i] != '/'
  {
    if p == [] then 0
    else if p[|p| - 1] == '/' then |p|
    else AfterLastSlash(p[..|p| - 1])
  }

  /** `s` without its trailing slashes. */
  function TrimSlashes(s: string): (r: string)
    ensures |r| <= |s| && r == s[..|r|]
    ensures forall i :: |r| <= i < |s| ==> s[i] == '/'
    ensures r == [] || r[|r| - 1] != '/'
  {
    if s != [] && s[|s| - 1] == '/' then TrimSlashes(s[..|s| - 1]) else s
  }

  /** Every character of `s` is a `/`. */
  predicate AllSlashes(s: string)
  {
    forall i :: 0 <= i < |s| ==> s[i] == '/'
  }

  /** `os.path.dirname(p)`: everything before the last `/`, without trailing
      slashes unless it consists of slashes only. */
  function Dirname(p: string): (r: string)
    ensures |r| <= |p| && r == p[..|r|]
    ensures (forall i :: 0 <= i < |p| ==> p[i] != '/') ==> r == []
    ensures |r| <= AfterLastSlash(p) && forall i :: |r| <= i < AfterLastSlash(p) ==> p[i] == '/'
    ensures AfterLastSlash(p) > 0 ==> r != []
    ensures AllSlashes(p[..AfterLastSlash(p)]) ==> r == p[..AfterLastSlash(p)]
    ensures !AllSlashes(r) ==> r[|r| - 1] != '/'
  {
    var head := p[..AfterLastSlash(p)];
    if head != [] && !AllSlashes(head) then TrimSlashes(head) else head
  }
}

=== FILE: pystr.dfy ===
/** The Python `str` operations the backup tool relies on: `splitlines`,
    `"\n".join`, `strip`, `in` (substring test) and `replace`. */
module PyStr {

  /** The line boundaries of Python's `str.splitlines`. */
  predicate IsLineBreak(c: char)
  {
    c == '\n' || c == '\r' || c == '\U{B}' || c == '\U{C}' ||
    c == '\U{1C}' || c == '\U{1D}' || c == '\U{1E}' || c == '\U{85}' ||
    c == '\U{2028}' || c == '\U{2029}'
  }

  predicate LineFree(s: string)
  {
    forall i :: 0 <= i < |s| ==> !IsLineBreak(s[i])
  }

  /** Index of the first line boundary in `s`, or `|s|` when there is none. */
  function FirstBreak(s: string): (n: nat)
    ensures n <= |s|
    ensures n < |s| ==> IsLineBreak(s[n])
  {
    if s == [] || IsLineBreak(s[0]) then 0
    else 1 + FirstBreak(s[1..])
  }

  /** No boundary comes before the one `FirstBreak` finds. */
  lemma {:induction false} FirstBreakLineFree(s: string)
    ensures LineFree(s[..FirstBreak(s)])
  {
    if s != [] && !IsLineBreak(s[0]) {
      FirstBreakLineFree(s[1..]);
      var n := FirstBreak(s);
      assert s[..n] == [s[0]] + s[1..][..n - 1];
    }
  }

  /** Width of the line boundary at `s[n]`: `\r\n` counts as one boundary. */
  function BreakWidth(s: string, n: nat): (w: nat)
    requires n < |s|
    ensures 1 <= w <= |s| - n
  {
    if s[n] == '\r' && n + 1 < |s| && s[n + 1] == '\n' then 2 else 1
  }

  /** `s.splitlines()`: no trailing empty line after a final boundary, and
      the empty string has no lines at all. */
  function SplitLines(s: string): (lines: seq<string>)
    decreases |s|
  {
    if s == [] then []
    else
      var n := FirstBreak(s);
      if n == |s| then [s]
      else [s[..n]] + SplitLines(s[n + BreakWidth(s, n)..])
  }

  /** `"\n".join(lines)`. */
  function JoinLines(lines: seq<string>): (text: string)
  {
    if lines == [] then []
    else if |lines| == 1 then lines[0]
    else lines[0] + "\n" + JoinLines(lines[1..])
  }

  lemma {:induction false} SplitLinesLineFree(s: string)
    ensures forall i :: 0 <= i < |SplitLines(s)| ==> LineFree(SplitLines(s)[i])
    decreases |s|
  {
    if s != [] {
      var n := FirstBreak(s);
      FirstBreakLineFree(s);
      if n < |s| {
        SplitLinesLineFree(s[n + BreakWidth(s, n)..]);
      }
    }
  }

  lemma {:induction false} FirstBreakAfterLine(a: string, rest: string)
    requires LineFree(a)
    ensures FirstBreak(a + "\n" + rest) == |a|
    decreases |a|
  {
    var s := a + "\n" + rest;
    if a != [] {
      assert s[1..] == a[1..] + "\n" + rest;
      FirstBreakAfterLine(a[1..], rest);
    }
  }

  /** Joining lines that hold no boundary and then splitting gives them back,
      unless the last one is empty (`"a\n".splitlines()` is `["a"]`). */
  lemma {:induction false} SplitJoin(lines: seq<string>)
    requires forall i :: 0 <= i < |lines| ==> LineFree(lines[i])
    requires lines == [] || lines[|lines| - 1] != []
    ensures SplitLines(JoinLines(lines)) == lines
    decreases |lines|
  {
    if |lines| == 1 {
      assert FirstBreak(lines[0]) == |lines[0]|;
    } else if |lines| > 1 {
      var a, rest := lines[0], JoinLines(lines[1..]);
      var s := a + "\n" + rest;
      FirstBreakAfterLine(a, rest);
      assert s[..|a|] == a;
      assert BreakWidth(s, |a|) == 1;
      assert s[|a| + 1..] == rest;
      SplitJoin(lines[1..]);
    }
  }

  /** The whitespace of Python's `str.strip`. */
  predicate IsSpace(c: char)
  {
    c == ' ' || ('\t' <= c <= '\r') || ('\U{1C}' <= c <= '\U{1F}') ||
    c == '\U{85}' || c == '\U{A0}' || c == '\U{1680}' ||
    ('\U{2000}' <= c <= '\U{200A}') || c == '\U{2028}' || c == '\U{2029}' ||
    c == '\U{202F}' || c == '\U{205F}' || c == '\U{3000}'
  }

  function TrimStart(s: string): (r: string)
    ensures |r| <= |s| && r == s[|s| - |r|..]
  {
    if s != [] && IsSpace(s[0]) then TrimStart(s[1..]) else s
  }

  /** `TrimStart` removes exactly the leading whitespace. */
  lemma {:induction false} TrimStartRemovesLeadingSpace(s: string)
    ensures var r := TrimStart(s);
      (forall i :: 0 <= i < |s| - |r| ==> IsSpace(s[i])) && (r == [] || !IsSpace(r[0]))
    decreases |s|
  {
    if s != [] && IsSpace(s[0]) {
      TrimStartRemovesLeadingSpace(s[1..]);
    }
  }

  function TrimEnd(s: string): (r: string)
    ensures |r| <= |s| && r == s[..|r|]
  {
    if s != [] && IsSpace(s[|s| - 1]) then TrimEnd(s[..|s| - 1]) else s
  }

  /** `TrimEnd` removes exactly the trailing whitespace. */
  lemma {:induction false} TrimEndRemovesTrailingSpace(s: string)
    ensures var r := TrimEnd(s);
      (forall i :: |r| <= i < |s| ==> IsSpace(s[i])) && (r == [] || !IsSpace(r[|r| - 1]))
    decreases |s|
  {
    if s != [] && IsSpace(s[|s| - 1]) {
      TrimEndRemovesTrailingSpace(s[..|s| - 1]);
    }
  }

  /** `s.strip()`. */
  function Strip(s: string): (t: string)
  {
    TrimEnd(TrimStart(s))
  }

  /** `strip` removes exactly the surrounding whitespace: what is left is a
      slice of `s` that neither starts nor ends with whitespace, and everything
      cut away on either side is whitespace. */
  lemma StripRemovesSurroundingSpace(s: string)
    ensures TrimmedTo(s, Strip(s), |s| - |TrimStart(s)|)
  {
    TrimStartRemovesLeadingSpace(s);
    TrimEndRemovesTrailingSpace(TrimStart(s));
    TrimmedSlice(s, TrimStart(s), Strip(s));
  }

  /** `t` is the slice of `s` that starts at `k`, everything of `s` outside
      it is whitespace, and `t` neither starts nor ends with whitespace. */
  predicate TrimmedTo(s: string, t: string, k: nat)
  {
    k + |t| <= |s| && t == s[k..k + |t|] &&
    (forall i :: 0 <= i < k ==> IsSpace(s[i])) &&
    (forall i :: k + |t| <= i < |s| ==> IsSpace(s[i])) &&
    (t == [] || (!IsSpace(t[0]) && !IsSpace(t[|t| - 1])))
  }

  /** The slice arithmetic behind `StripRemovesSurroundingSpace`: `u` is `s`
      without its leading whitespace and `t` is `u` without its trailing
      whitespace. */
  lemma TrimmedSlice(s: string, u: string, t: string)
    requires |u| <= |s| && u == s[|s| - |u|..] && |t| <= |u| && t == u[..|t|]
    requires forall i :: 0 <= i < |s| - |u| ==> IsSpace(s[i])
    requires forall i :: |t| <= i < |u| ==> IsSpace(u[i])
    requires (u == [] || !IsSpace(u[0])) && (t == [] || !IsSpace(t[|t| - 1]))
    ensures TrimmedTo(s, t, |s| - |u|)
  {
    var k := |s| - |u|;
    assert t == s[k..k + |t|];
    forall i | k + |t| <= i < |s|
      ensures IsSpace(s[i])
    {
      assert s[i] == u[i - k];
    }
    if t != [] {
      assert t[0] == u[0];
    }
  }

  predicate StartsWith(s: string, p: string)
  {
    |p| <= |s| && s[..|p|] == p
  }

  /** `t in s` for strings: `t` occurs somewhere in `s`. */
  predicate Contains(s: string, t: string)
    decreases |s|
  {
    StartsWith(s, t) || (s != [] && Contains(s[1..], t))
  }

  /** `t` occurs in `s` at index `i`. */
  predicate OccursAt(s: string, t: string, i: int)
  {
    0 <= i <= |s| - |t| && s[i..i + |t|] == t
  }

  /** `Contains` is the substring test: `t` occurs in `s` exactly when it
      occurs at some index. */
  lemma {:induction false} ContainsExactly(s: string, t: string)
    ensures Contains(s, t) <==> exists i :: OccursAt(s, t, i)
    decreases |s|
  {
    if Contains(s, t) {
      if StartsWith(s, t) {
        assert OccursAt(s, t, 0);
      } else {
        ContainsExactly(s[1..], t);
        var i :| OccursAt(s[1..], t, i);
        assert s[i + 1..i + 1 + |t|] == s[1..][i..i + |t|];
        assert OccursAt(s, t, i + 1);
      }
    }
    if exists i :: OccursAt(s, t, i) {
      var i :| OccursAt(s, t, i);
      if i > 0 {
        assert s[1..][i - 1..i - 1 + |t|] == s[i..i + |t|];
        assert OccursAt(s[1..], t, i - 1);
        ContainsExactly(s[1..], t);
      } else {
        assert StartsWith(s, t);
      }
    }
  }

  /** `s.replace(pat, sub)`: left to right, non-overlapping. */
  function Replace(s: string, pat: string, sub: string): (t: string)
    requires pat != []
    decreases |s|
  {
    if s == [] then []
    else if StartsWith(s, pat) then sub + Replace(s[|pat|..], pat, sub)
    else [s[0]] + Replace(s[1..], pat, sub)
  }

  lemma {:induction false} ReplaceAbsent(s: string, pat: string, sub: string)
    requires pat != [] && !Contains(s, pat)
    ensures Replace(s, pat, sub) == s
    decreases |s|
  {
    if s != [] {
      ReplaceAbsent(s[1..], pat, sub);
    }
  }

  /** A string without the first character of `t` does not contain `t`. */
  lemma {:induction false} FirstCharAbsent(s: string, t: string)
    requires t != [] && t[0] !in s
    ensures !Contains(s, t)
    decreases |s|
  {
    if s != [] {
      FirstCharAbsent(s[1..], t);
    }
  }

  /** A character that neither the subject nor the replacement holds is not in the result. */
  lemma {:induction false} ReplaceKeepsOut(s: string, pat: string, sub: string, c: char)
    requires pat != [] && c !in s && c !in sub
    ensures c !in Replace(s, pat, sub)
    decreases |s|
  {
    if s != [] {
      if StartsWith(s, pat) {
        ReplaceKeepsOut(s[|pat|..], pat, sub, c);
      } else {
        ReplaceKeepsOut(s[1..], pat, sub, c);
      }
    }
  }

  /** Replacing a single character removes it, unless the replacement brings it back. */
  lemma {:induction false} ReplaceRemovesChar(s: string, c: char, sub: string)
    requires c !in sub
    ensures c !in Replace(s, [c], sub)
    decreases |s|
  {
    if s != [] {
      if StartsWith(s, [c]) {
        ReplaceRemovesChar(s[1..], c, sub);
      } else {
        assert s[0] != c by { assert s[..1] == [s[0]]; }
        ReplaceRemovesChar(s[1..], c, sub);
      }
    }
  }

  lemma {:induction false} ContainsAppendLeft(a: string, b: string, t: string)
    requires Contains(b, t)
    ensures Contains(a + b, t)
    decreases |a|
  {
    if a != [] {
      assert (a + b)[1..] == a[1..] + b;
      ContainsAppendLeft(a[1..], b, t);
    } else {
      assert a + b == b;
    }
  }

  /** Replacing a character that occurs leaves an occurrence of the replacement. */
  lemma {:induction false} ReplaceInsertsNew(s: string, c: char, sub: string)
    requires c in s
    ensures Contains(Replace(s, [c], sub), sub)
    decreases |s|
  {
    if StartsWith(s, [c]) {
      assert StartsWith(sub + Replace(s[1..], [c], sub), sub);
    } else {
      assert s[0] != c by { assert s[..1] == [s[0]]; }
      assert c in s[1..];
      ReplaceInsertsNew(s[1..], c, sub);
      ContainsAppendLeft([s[0]], Replace(s[1..], [c], sub), sub);
    }
  }
}

=== FILE: server.dfy ===
/** The backup side, confcove_server.py: re-resolving each manifest entry on a
    remote machine and mirroring the files it names under a per-machine local
    directory. The SSH session is a `Session` object whose remote end is a
    `Remote` value (what each shell command prints, or the exception it raises,
    and what each SFTP transfer yields); the local backup tree is a `LocalStore`
    object. Exceptions that the Python code lets propagate are `Fault` values. */
module ConfcoveServer {
  import opened Wrappers
  import opened PyStr
  import opened PosixPath

  type Bytes = seq<bv8>

  /** An exception that escapes the function raising it. */
  datatype Fault =
    | SshError(message: string)  // exec_command or open_sftp raised
    | KeyError(key: string)      // machine["name"] or machine["host"] is missing
    | NoTrackedFilePath          // tracked_file_path is None: `'~' in None` raises TypeError

  /** Why one `sftp.get` failed; these are caught file by file. */
  datatype TransferError =
    | NotFound(detail: string)
    | PermissionDenied(detail: string)
    | Unexpected(detail: string)

  /** The shell commands the backup runs on the remote machine. */
  datatype Command =
    | TestDirectory(path: string)  // if [ -d "<path>" ]; then echo "dir"; fi
    | FindFiles(path: string)      // find "<path>" -type f
    | ListMatches(pattern: string) // ls -d <pattern>
    | EchoHome                     // echo $HOME
    | Cat(path: string)            // cat "<path>"

  /** The remote machine as the backup sees it. */
  datatype Remote = Remote(
    shell: Command -> Result<string, Fault>,      // what a command prints on stdout
    sftpFault: Option<Fault>,                     // whether open_sftp raises
    fetch: string -> Result<Bytes, TransferError>) // what sftp.get transfers

  /** An open SSH connection (paramiko's SSHClient). */
  class Session {
    const remote: Remote
    var open: bool
    var sftpOpen: bool
    var issued: seq<Command>  // every command run on this connection, in order

    constructor (remote: Remote)
      ensures this.remote == remote && open && !sftpOpen && issued == []
    {
      this.remote := remote;
      open, sftpOpen, issued := true, false, [];
    }

    /** `exec_command(c)` followed by `stdout.read().decode()`. */
    method Exec(c: Command) returns (out: Result<string, Fault>)
      requires open
      modifies this
      ensures out == remote.shell(c)
      ensures issued == old(issued) + [c] && open && sftpOpen == old(sftpOpen)
    {
      issued := issued + [c];
      out := remote.shell(c);
    }

    /** `open_sftp()`. */
    method OpenSftp() returns (fault: Option<Fault>)
      requires open && !sftpOpen
      modifies this
      ensures fault == remote.sftpFault
      ensures sftpOpen == fault.None? && open && issued == old(issued)
    {
      fault := remote.sftpFault;
      sftpOpen := fault.None?;
    }

    /** `sftp.get(remoteFile, ...)`: the bytes it transfers or the error it raises. */
    method Get(remoteFile: string) returns (r: Result<Bytes, TransferError>)
      requires open && sftpOpen
      ensures r == remote.fetch(remoteFile)
    {
      r := remote.fetch(remoteFile);
    }

    /** `sftp.close()`. */
    method CloseSftp()
      modifies this
      ensures !sftpOpen && open == old(open) && issued == old(issued)
    {
      sftpOpen := false;
    }

    /** `ssh.close()`. */
    method Close()
      modifies this
      ensures !open && !sftpOpen && issued == old(issued)
    {
      open, sftpOpen := false, false;
    }
  }

  /** The local backup tree: file contents by path, and the directories made. */
  class LocalStore {
    var files: map<string, Bytes>
    var dirs: set<string>

    constructor ()
      ensures files == map[] && dirs == {}
    {
      files, dirs := map[], {};
    }

    /** `os.makedirs(d, exist_ok=True)`. */
    method MakeDirs(d: string)
      modifies this
      ensures dirs == old(dirs) + {d} && files == old(files)
    {
      dirs := dirs + {d};
    }

    /** Writing the transferred bytes to `path`, replacing what was there. */
    method Write(path: string, content: Bytes)
      modifies this
      ensures files == old(files)[path := content] && dirs == old(dirs)
    {
      files := files[path := content];
    }
  }

  // ---- get_tracked_file_path ----

  const HomeToken: string := "$HOME"

  /** The path after its first step: every `~` becomes `$HOME`. */
  function TildeExpanded(p: string): (q: string)
  {
    if '~' in p then Replace(p, "~", HomeToken) else p
  }

  /** Whether the remote home directory is asked for. */
  predicate NeedsHome(p: string)
  {
    Contains(TildeExpanded(p), HomeToken)
  }

  /** The expanded path once the remote home directory is known. */
  function ExpandWith(p: string, home: string): (q: string)
  {
    var q := TildeExpanded(p);
    if Contains(q, HomeToken) then Replace(q, HomeToken, home) else q
  }

  /** What `get_tracked_file_path` returns or raises on a given remote machine. */
  function ExpandSpec(r: Remote, p: string): (expanded: Result<string, Fault>)
  {
    if NeedsHome(p) then
      match r.shell(EchoHome)
      case Failure(f) => Failure(f)
      case Success(out) => Success(ExpandWith(p, Strip(out)))
    else Success(p)
  }

  /** `get_tracked_file_path(ssh, p)` (confcove_server.py, lines 151-168). */
  method GetTrackedFilePath(session: Session, p: string) returns (r: Result<string, Fault>)
    requires session.open && !session.sftpOpen
    modifies session
    ensures r == ExpandSpec(session.remote, p)
    ensures session.issued == old(session.issued) + (if NeedsHome(p) then [EchoHome] else [])
    ensures session.open && !session.sftpOpen
  {
    var path := p;
    if '~' in path {
      path := Replace(path, "~", HomeToken);
    }
    if Contains(path, HomeToken) {
      var out := session.Exec(EchoHome);
      match out
      case Failure(f) =>
        r := Failure(f);
      case Success(text) =>
        var homeDir := Strip(text);
        r := Success(Replace(path, HomeToken, homeDir));
    } else {
      ReplaceNoTokenMeansNoTilde(p);
      r := Success(path);
    }
  }

  lemma ReplaceNoTokenMeansNoTilde(p: string)
    requires !NeedsHome(p)
    ensures TildeExpanded(p) == p
  {
    if '~' in p {
      ReplaceInsertsNew(p, '~', HomeToken);
    }
  }

  /** The remote home directory is asked for exactly when the path holds `~` or `$HOME`. */
  lemma {:induction false} HomeQueriedIffToken(p: string)
    ensures NeedsHome(p) <==> ('~' in p || Contains(p, HomeToken))
  {
    if '~' in p {
      ReplaceInsertsNew(p, '~', HomeToken);
    }
  }

  /** A path without `~` and `$HOME` comes back unchanged and no command is run for it. */
  lemma PlainPathUnchanged(r: Remote, p: string)
    requires '~' !in p && !Contains(p, HomeToken)
    ensures !NeedsHome(p) && ExpandSpec(r, p) == Success(p)
  {
  }

  /** Stripping the newline `echo` prints after a home directory. */
  lemma StripNewline(h: string)
    requires h != [] && !IsSpace(h[0]) && !IsSpace(h[|h| - 1])
    ensures Strip(h + "\n") == h
  {
    var s := h + "\n";
    assert s[0] == h[0];
    assert TrimStart(s) == s;
    assert s[..|s| - 1] == h;
    assert TrimEnd(s) == TrimEnd(h);
  }

  lemma StripHomeExample()
    ensures Strip("/home/alice\n") == "/home/alice"
  {
    var h := "/home/alice";
    assert h[0] == '/' && h[|h| - 1] == 'e';
    StripNewline(h);
    assert h + "\n" == "/home/alice\n";
  }

  lemma LeadingTildeExpanded(rest: string)
    requires '~' !in rest
    ensures TildeExpanded("~" + rest) == HomeToken + rest
  {
    var p := "~" + rest;
    assert StartsWith(p, "~");
    assert p[1..] == rest;
    FirstCharAbsent(rest, "~");
    ReplaceAbsent(rest, "~", HomeToken);
  }

  lemma LeadingHomeExpanded(rest: string, home: string)
    requires '~' !in rest && '$' !in rest
    ensures ExpandWith("~" + rest, home) == home + rest
  {
    LeadingTildeExpanded(rest);
    var q := HomeToken + rest;
    assert StartsWith(q, HomeToken);
    assert Contains(q, HomeToken);
    assert q[|HomeToken|..] == rest;
    FirstCharAbsent(rest, HomeToken);
    ReplaceAbsent(rest, HomeToken, home);
  }

  /** A home-relative entry `~<rest>` resolves to the remote home (as printed by
      `echo $HOME`, whitespace stripped) followed by `<rest>`. */
  lemma HomeRelativeResolved(r: Remote, rest: string, out: string)
    requires '~' !in rest && '$' !in rest
    requires r.shell(EchoHome) == Success(out)
    ensures ExpandSpec(r, "~" + rest) == Success(Strip(out) + rest)
  {
    LeadingTildeExpanded(rest);
    assert StartsWith(HomeToken + rest, HomeToken);
    LeadingHomeExpanded(rest, Strip(out));
  }

  /** `~/.bashrc` on a machine whose `echo $HOME` prints `/home/alice`. */
  lemma TildeExample(r: Remote)
    requires r.shell(EchoHome) == Success("/home/alice\n")
    ensures ExpandSpec(r, "~/.bashrc") == Success("/home/alice/.bashrc")
  {
    var rest, out := "/.bashrc", "/home/alice\n";
    assert "~" + rest == "~/.bashrc";
    assert "/home/alice" + rest == "/home/alice/.bashrc";
    assert '~' !in rest && '$' !in rest;
    StripHomeExample();
    HomeRelativeResolved(r, rest, out);
  }

  lemma {:induction false} DollarFreePrefixSkipped(a: string, b: string)
    requires '$' !in a && Contains(a + b, HomeToken)
    ensures Contains(b, HomeToken)
    decreases |a|
  {
    if a == [] {
      assert a + b == b;
    } else {
      assert !StartsWith(a + b, HomeToken) by {
        assert (a + b)[0] == a[0];
      }
      assert (a + b)[1..] == a[1..] + b;
      DollarFreePrefixSkipped(a[1..], b);
    }
  }

  /** After replacing `$HOME` by an absolute home, a prefix with neither `$`
      nor `/` can only come from the original text. */
  lemma {:induction false} ReplacedPrefix(t: string, home: string, w: string)
    requires home != [] && home[0] == '/' && '$' !in w && '/' !in w
    ensures StartsWith(Replace(t, HomeToken, home), w) ==> StartsWith(t, w)
    decreases |t|
  {
    if w != [] && t != [] {
      var whole := Replace(t, HomeToken, home);
      var rest := Replace(t[1..], HomeToken, home);
      if StartsWith(t, HomeToken) {
        assert whole[0] == '/' && w[0] != '/';
      } else {
        assert whole == [t[0]] + rest;
        ReplacedPrefix(t[1..], home, w[1..]);
        if StartsWith(whole, w) {
          assert StartsWith(rest, w[1..]);
          assert t[..|w|] == [t[0]] + t[1..][..|w| - 1];
        }
      }
    }
  }

  /** Replacing `$HOME` by an absolute home without `$` leaves no `$HOME`. */
  lemma {:induction false} ReplaceRemovesHome(s: string, home: string)
    requires home != [] && home[0] == '/' && '$' !in home
    ensures !Contains(Replace(s, HomeToken, home), HomeToken)
    decreases |s|
  {
    if s != [] {
      if StartsWith(s, HomeToken) {
        var rest := Replace(s[|HomeToken|..], HomeToken, home);
        ReplaceRemovesHome(s[|HomeToken|..], home);
        if '$' !in home && Contains(home + rest, HomeToken) {
          DollarFreePrefixSkipped(home, rest);
        }
      } else {
        var rest := Replace(s[1..], HomeToken, home);
        var whole := [s[0]] + rest;
        ReplaceRemovesHome(s[1..], home);
        assert whole[1..] == rest;
        ReplacedPrefix(s[1..], home, "HOME");
        assert !StartsWith(whole, HomeToken) by {
          if s[0] == '$' && |s| >= 5 {
            assert s[..5] == [s[0]] + s[1..][..4];
            assert !StartsWith(s[1..], "HOME");
            assert !StartsWith(rest, "HOME");
            if |whole| >= 5 {
              assert whole[..5] == [s[0]] + rest[..4];
            }
          } else if s[0] == '$' {
            assert !StartsWith(s[1..], "HOME");
            assert !StartsWith(rest, "HOME");
            if |whole| >= 5 {
              assert whole[..5] == [s[0]] + rest[..4];
            }
          } else {
            assert whole[0] != HomeToken[0];
          }
        }
      }
    }
  }

  /** With an absolute remote home holding neither `~` nor `$`, the expanded
      path holds neither `~` nor `$HOME`. */
  lemma ExpansionRemovesTokens(p: string, home: string)
    requires home != [] && home[0] == '/' && '$' !in home && '~' !in home
    ensures '~' !in ExpandWith(p, home) && !Contains(ExpandWith(p, home), HomeToken)
  {
    var q := TildeExpanded(p);
    if '~' in p {
      ReplaceRemovesChar(p, '~', HomeToken);
    }
    if Contains(q, HomeToken) {
      ReplaceKeepsOut(q, HomeToken, home, '~');
      ReplaceRemovesHome(q, home);
    }
  }

  /** Without that condition the token can reappear: `$$HOME` with home `HOME`. */
  lemma ExpansionCanRebuildToken()
    ensures ExpandWith("$$HOME", "HOME") == "$HOME"
  {
    var p := "$$HOME";
    assert TildeExpanded(p) == p;
    assert p[..5][1] != HomeToken[1];
    assert StartsWith(p[1..], HomeToken);
    assert Contains(p, HomeToken);
    assert p[1..][|HomeToken|..] == [];
    assert Replace(p[1..], HomeToken, "HOME") == "HOME";
  }

  // ---- list_remote_files ----

  /** The second command: a recursive `find` for a directory, `ls -d` otherwise. */
  function ListingCommand(path: string, testAnswer: string): (c: Command)
  {
    if Strip(testAnswer) == "dir" then FindFiles(path) else ListMatches(path)
  }

  /** What `list_remote_files` returns or raises. */
  function ListingSpec(r: Remote, path: string): (files: Result<seq<string>, Fault>)
  {
    match r.shell(TestDirectory(path))
    case Failure(f) => Failure(f)
    case Success(answer) =>
      match r.shell(ListingCommand(path, answer))
      case Failure(f) => Failure(f)
      case Success(out) => Success(SplitLines(out))
  }

  /** The commands `list_remote_files` runs: the directory test, then the
      listing unless the test itself raised. */
  function ListingIssued(r: Remote, path: string): (cmds: seq<Command>)
  {
    [TestDirectory(path)] +
    match r.shell(TestDirectory(path))
    case Success(answer) => [ListingCommand(path, answer)]
    case Failure(_) => []
  }

  /** `list_remote_files(ssh, path)` (confcove_server.py, lines 89-104). */
  method ListRemoteFiles(session: Session, path: string) returns (files: Result<seq<string>, Fault>)
    requires session.open && !session.sftpOpen
    modifies session
    ensures files == ListingSpec(session.remote, path)
    ensures session.open && !session.sftpOpen
    ensures session.issued == old(session.issued) + ListingIssued(session.remote, path)
  {
    var test := session.Exec(TestDirectory(path));
    if test.Failure? {
      return Failure(test.error);
    }
    var out: Result<string, Fault>;
    if Strip(test.value) == "dir" {
      out := session.Exec(FindFiles(path));
    } else {
      out := session.Exec(ListMatches(path));
    }
    AppendAssoc(old(session.issued), [TestDirectory(path)], [ListingCommand(path, test.value)]);
    if out.Failure? {
      return Failure(out.error);
    }
    files := Success(SplitLines(out.value));
  }

  // ---- the destination rule of download_files ----

  /** `remote_file[1:]`. */
  function DropFirst(s: string): (t: string)
  {
    if s == [] then [] else s[1..]
  }

  /** Local path of one remote file (confcove_server.py, lines 114-117). */
  function Destination(localBase: string, remoteBase: string, remoteFile: string): (local: string)
    ensures remoteBase != [] && remoteBase[|remoteBase| - 1] == '/' ==> local == localBase + remoteFile
    ensures (remoteBase == [] || remoteBase[|remoteBase| - 1] != '/') && |remoteFile| > 1 && remoteFile[1] == '/' ==>
      local == remoteFile[1..]
    ensures (remoteBase == [] || remoteBase[|remoteBase| - 1] != '/') && (|remoteFile| <= 1 || remoteFile[1] != '/') ==>
      |local| >= |localBase| + |DropFirst(remoteFile)| && local[..|localBase|] == localBase &&
      local[|local| - |DropFirst(remoteFile)|..] == DropFirst(remoteFile)
  {
    if remoteBase != [] && remoteBase[|remoteBase| - 1] == '/' then localBase + remoteFile
    else Join(localBase, DropFirst(remoteFile))
  }

  /** An absolute remote path with a single leading `/` lands at the same place
      under both branches: the local base followed by the whole remote path. */
  lemma DestinationKeepsRemotePath(localBase: string, remoteBase: string, remoteFile: string)
    requires localBase != [] && localBase[|localBase| - 1] != '/'
    requires remoteFile != [] && remoteFile[0] == '/' && (|remoteFile| == 1 || remoteFile[1] != '/')
    ensures Destination(localBase, remoteBase, remoteFile) == localBase + remoteFile
  {
    if remoteBase == [] || remoteBase[|remoteBase| - 1] != '/' {
      var rest := remoteFile[1..];
      calc {
        Destination(localBase, remoteBase, remoteFile);
        Join(localBase, rest);
        localBase + "/" + rest;
        { AppendAssoc(localBase, "/", rest); }
        localBase + ("/" + rest);
        { assert "/" + rest == remoteFile; }
        localBase + remoteFile;
      }
    }
  }

  /** Two different such remote files never share a destination. */
  lemma DestinationInjective(localBase: string, remoteBase: string, f: string, g: string)
    requires localBase != [] && localBase[|localBase| - 1] != '/'
    requires f != [] && f[0] == '/' && (|f| == 1 || f[1] != '/')
    requires g != [] && g[0] == '/' && (|g| == 1 || g[1] != '/')
    requires f != g
    ensures Destination(localBase, remoteBase, f) != Destination(localBase, remoteBase, g)
  {
    DestinationKeepsRemotePath(localBase, remoteBase, f);
    DestinationKeepsRemotePath(localBase, remoteBase, g);
    assert (localBase + f)[|localBase|..] == f;
    assert (localBase + g)[|localBase|..] == g;
  }

  /** Under an entry with a trailing `/`, the whole remote path is appended to
      the local base, so the remote tree below the entry keeps its shape. */
  lemma DirectoryEntryKeepsStructure(localBase: string, remoteBase: string, remoteFile: string)
    requires remoteBase != [] && remoteBase[|remoteBase| - 1] == '/'
    ensures Destination(localBase, remoteBase, remoteFile) == localBase + remoteFile
  {
  }

  /** The other branch drops a character and obeys `os.path.join`: a remote path
      starting with `//` replaces the local base, and a relative one loses its
      first letter. */
  lemma DestinationStripBranchExamples()
    ensures Destination("/opt/ConfigCove_repo/web", "//etc/hosts", "//etc/hosts") == "/etc/hosts"
    ensures Destination("/opt/ConfigCove_repo/web", "notes.txt", "notes.txt") == "/opt/ConfigCove_repo/web/otes.txt"
  {
    assert DropFirst("//etc/hosts") == "/etc/hosts";
    assert DropFirst("notes.txt") == "otes.txt";
  }

  // ---- download_files ----

  /** What happened to one remote file of a batch. */
  datatype Outcome =
    | Saved(remote: string, local: string, content: Bytes)
    | Failed(remote: string, local: string, error: TransferError)

  /** The attempt on one file: its destination, and the transfer's result. */
  function Attempt(r: Remote, localBase: string, remoteBase: string, remoteFile: string): (o: Outcome)
  {
    var local := Destination(localBase, remoteBase, remoteFile);
    match r.fetch(remoteFile)
    case Success(content) => Saved(remoteFile, local, content)
    case Failure(e) => Failed(remoteFile, local, e)
  }

  function Attempts(r: Remote, localBase: string, remoteBase: string, remoteFiles: seq<string>): (outs: seq<Outcome>)
  {
    if remoteFiles == [] then []
    else
      Attempts(r, localBase, remoteBase, remoteFiles[..|remoteFiles| - 1]) +
      [Attempt(r, localBase, remoteBase, remoteFiles[|remoteFiles| - 1])]
  }

  lemma AttemptsStep(r: Remote, localBase: string, remoteBase: string, remoteFiles: seq<string>, i: nat)
    requires i < |remoteFiles|
    ensures Attempts(r, localBase, remoteBase, remoteFiles[..i + 1]) ==
      Attempts(r, localBase, remoteBase, remoteFiles[..i]) + [Attempt(r, localBase, remoteBase, remoteFiles[i])]
  {
    assert remoteFiles[..i + 1][..i] == remoteFiles[..i];
  }

  /** What `download_files` reports, or the exception it raises. */
  function BatchSpec(r: Remote, remoteFiles: seq<string>, localBase: string, remoteBase: string): (batch: Result<seq<Outcome>, Fault>)
  {
    match r.sftpFault
    case Some(f) => Failure(f)
    case None => Success(Attempts(r, localBase, remoteBase, remoteFiles))
  }

  /** The local files after the saved outcomes are written in order. */
  function Mirror(files: map<string, Bytes>, outs: seq<Outcome>): (mirrored: map<string, Bytes>)
  {
    if outs == [] then files
    else
      Apply(Mirror(files, outs[..|outs| - 1]), outs[|outs| - 1])
  }

  /** The local files after one outcome: a saved file is (over)written. */
  function Apply(files: map<string, Bytes>, o: Outcome): (mirrored: map<string, Bytes>)
  {
    match o
    case Saved(_, local, content) => files[local := content]
    case Failed(_, _, _) => files
  }

  /** The directories made for a sequence of attempts: one per attempt. */
  function DirsOf(outs: seq<Outcome>): (dirs: set<string>)
  {
    if outs == [] then {}
    else DirsOf(outs[..|outs| - 1]) + {Dirname(outs[|outs| - 1].local)}
  }

  lemma MirrorStep(files: map<string, Bytes>, outs: seq<Outcome>, o: Outcome)
    ensures Mirror(files, outs + [o]) == Apply(Mirror(files, outs), o)
    ensures DirsOf(outs + [o]) == DirsOf(outs) + {Dirname(o.local)}
  {
    assert (outs + [o])[..|outs|] == outs;
  }

  /** One iteration of the batch loop: make the parent directory when it is
      not there yet, fetch the file, and write it on success. */
  method FetchOne(session: Session, store: LocalStore, localBase: string, remoteBase: string, remoteFile: string)
    returns (outcome: Outcome)
    requires session.open && session.sftpOpen
    modifies store
    ensures outcome == Attempt(session.remote, localBase, remoteBase, remoteFile)
    ensures store.files == Apply(old(store.files), outcome)
    ensures store.dirs == old(store.dirs) + {Dirname(outcome.local)}
  {
    var localFile := Destination(localBase, remoteBase, remoteFile);
    var localDir := Dirname(localFile);
    if localDir !in store.dirs {
      store.MakeDirs(localDir);
    }
    var got := session.Get(remoteFile);
    match got {
      case Success(content) =>
        store.Write(localFile, content);
        outcome := Saved(remoteFile, localFile, content);
      case Failure(e) =>
        outcome := Failed(remoteFile, localFile, e);
    }
  }

  /** `download_files(ssh, remote_files, local_base_dir, remote_base_dir)`
      (confcove_server.py, lines 107-133). */
  method DownloadFiles(session: Session, store: LocalStore, remoteFiles: seq<string>,
                       localBase: string, remoteBase: string)
    returns (result: Result<seq<Outcome>, Fault>)
    requires session.open && !session.sftpOpen
    modifies session, store
    ensures result == BatchSpec(session.remote, remoteFiles, localBase, remoteBase)
    ensures result.Success? ==> store.files == Mirror(old(store.files), result.value)
    ensures result.Success? ==> store.dirs == old(store.dirs) + DirsOf(result.value)
    ensures result.Failure? ==> store.files == old(store.files) && store.dirs == old(store.dirs)
    ensures session.open && !session.sftpOpen && session.issued == old(session.issued)
  {
    var fault := session.OpenSftp();
    if fault.Some? {
      return Failure(fault.value);
    }
    var outs: seq<Outcome> := [];
    for i := 0 to |remoteFiles|
      invariant outs == Attempts(session.remote, localBase, remoteBase, remoteFiles[..i])
      invariant store.files == Mirror(old(store.files), outs)
      invariant store.dirs == old(store.dirs) + DirsOf(outs)
      invariant session.open && session.sftpOpen && session.issued == old(session.issued)
    {
      var outcome := FetchOne(session, store, localBase, remoteBase, remoteFiles[i]);
      AttemptsStep(session.remote, localBase, remoteBase, remoteFiles, i);
      MirrorStep(old(store.files), outs, outcome);
      outs := outs + [outcome];
    }
    assert remoteFiles[..|remoteFiles|] == remoteFiles;
    session.CloseSftp();
    result := Success(outs);
  }

  /** Every file of a batch is attempted exactly once, in order, at its
      destination; its outcome depends on its own transfer only, so one
      failure leaves the others as they would have been. */
  lemma {:induction false} AttemptsInOrder(r: Remote, localBase: string, remoteBase: string, remoteFiles: seq<string>)
    ensures var outs := Attempts(r, localBase, remoteBase, remoteFiles);
      |outs| == |remoteFiles| &&
      forall i :: 0 <= i < |remoteFiles| ==>
        outs[i].remote == remoteFiles[i] &&
        outs[i].local == Destination(localBase, remoteBase, remoteFiles[i]) &&
        (outs[i].Saved? <==> r.fetch(remoteFiles[i]).Success?) &&
        (outs[i].Saved? ==> outs[i].content == r.fetch(remoteFiles[i]).value) &&
        (outs[i].Failed? ==> outs[i].error == r.fetch(remoteFiles[i]).error)
  {
    if remoteFiles != [] {
      AttemptsInOrder(r, localBase, remoteBase, remoteFiles[..|remoteFiles| - 1]);
    }
  }

  /** A local path that no saved outcome names keeps what it held. */
  lemma {:induction false} MirrorUntouched(files: map<string, Bytes>, outs: seq<Outcome>, path: string)
    requires forall j :: 0 <= j < |outs| && outs[j].Saved? ==> outs[j].local != path
    ensures (path in Mirror(files, outs)) == (path in files)
    ensures path in files ==> Mirror(files, outs)[path] == files[path]
  {
    if outs != [] {
      MirrorUntouched(files, outs[..|outs| - 1], path);
    }
  }

  /** A saved file holds the bytes of the last saved outcome for its path. */
  lemma {:induction false} MirrorLastWriteWins(files: map<string, Bytes>, outs: seq<Outcome>, i: nat)
    requires i < |outs| && outs[i].Saved?
    requires forall j :: i < j < |outs| && outs[j].Saved? ==> outs[j].local != outs[i].local
    ensures outs[i].local in Mirror(files, outs)
    ensures Mirror(files, outs)[outs[i].local] == outs[i].content
  {
    if i < |outs| - 1 {
      MirrorLastWriteWins(files, outs[..|outs| - 1], i);
    }
  }

  lemma {:induction false} MirrorAppend(files: map<string, Bytes>, a: seq<Outcome>, b: seq<Outcome>)
    ensures Mirror(files, a + b) == Mirror(Mirror(files, a), b)
    ensures DirsOf(a + b) == DirsOf(a) + DirsOf(b)
    decreases |b|
  {
    if b == [] {
      assert a + b == a;
    } else {
      var init := b[..|b| - 1];
      assert (a + b)[..|a + b| - 1] == a + init;
      assert (a + b)[|a + b| - 1] == b[|b| - 1];
      MirrorAppend(files, a, init);
    }
  }

  lemma DirsAppend(base: set<string>, a: seq<Outcome>, b: seq<Outcome>)
    ensures base + DirsOf(a + b) == (base + DirsOf(a)) + DirsOf(b)
  {
    MirrorAppend(map[], a, b);
  }

  // ---- process_tracked_files ----

  /** The outcomes so far, and the exception that ended the work, if any. */
  datatype Trace = Trace(outs: seq<Outcome>, fault: Option<Fault>)

  /** One manifest line: list it, then download what it names with the raw
      line as the remote base. */
  function EntryStep(r: Remote, line: string, localBase: string): (step: Result<seq<Outcome>, Fault>)
  {
    match ListingSpec(r, line)
    case Failure(f) => Failure(f)
    case Success(remoteFiles) => BatchSpec(r, remoteFiles, localBase, line)
  }

  /** The result of each manifest line taken on its own, in manifest order. */
  function EntrySteps(r: Remote, lines: seq<string>, localBase: string): (steps: seq<Result<seq<Outcome>, Fault>>)
    ensures |steps| == |lines|
  {
    if lines == [] then []
    else EntrySteps(r, lines[..|lines| - 1], localBase) + [EntryStep(r, lines[|lines| - 1], localBase)]
  }

  lemma {:induction false} EntryStepsAt(r: Remote, lines: seq<string>, localBase: string, i: nat)
    requires i < |lines|
    ensures EntrySteps(r, lines, localBase)[i] == EntryStep(r, lines[i], localBase)
    decreases |lines|
  {
    if i < |lines| - 1 {
      var init := lines[..|lines| - 1];
      EntryStepsAt(r, init, localBase, i);
      assert init[i] == lines[i];
    }
  }

  /** The loop of `process_tracked_files` over those results: outcomes pile
      up in order, and the first exception ends the loop. */
  function Collect(steps: seq<Result<seq<Outcome>, Fault>>): (t: Trace)
  {
    if steps == [] then Trace([], None)
    else
      var before := Collect(steps[..|steps| - 1]);
      if before.fault.Some? then before
      else
        match steps[|steps| - 1]
        case Failure(f) => Trace(before.outs, Some(f))
        case Success(batch) => Trace(before.outs + batch, None)
  }

  /** The lines in order; the first exception ends the loop. */
  function EntriesSpec(r: Remote, lines: seq<string>, localBase: string): (t: Trace)
  {
    Collect(EntrySteps(r, lines, localBase))
  }

  /** What `process_tracked_files` does, from reading the manifest on. */
  function ProcessSpec(r: Remote, trackedPath: string, localBase: string): (t: Trace)
  {
    match r.shell(Cat(trackedPath))
    case Failure(f) => Trace([], Some(f))
    case Success(text) => EntriesSpec(r, SplitLines(text), localBase)
  }

  lemma CollectStep(steps: seq<Result<seq<Outcome>, Fault>>, i: nat)
    requires i < |steps|
    ensures var before := Collect(steps[..i]);
      Collect(steps[..i + 1]) ==
        if before.fault.Some? then before
        else if steps[i].Failure? then Trace(before.outs, Some(steps[i].error))
        else Trace(before.outs + steps[i].value, None)
  {
    var prefix := steps[..i + 1];
    assert prefix[..|prefix| - 1] == steps[..i];
    assert prefix[|prefix| - 1] == steps[i];
  }

  /** Once a step fails, the later steps change nothing. */
  lemma {:induction false} CollectStopsAtFault(steps: seq<Result<seq<Outcome>, Fault>>, i: nat)
    requires i < |steps|
    requires Collect(steps[..i + 1]).fault.Some?
    ensures Collect(steps) == Collect(steps[..i + 1])
    decreases |steps|
  {
    if i + 1 == |steps| {
      assert steps[..i + 1] == steps;
    } else {
      assert steps[..|steps| - 1][..i + 1] == steps[..i + 1];
      CollectStopsAtFault(steps[..|steps| - 1], i);
    }
  }

  /** The listing commands of the first `n` manifest lines, in order. */
  function ListingsUpTo(r: Remote, lines: seq<string>, n: nat): (cmds: seq<Command>)
    requires n <= |lines|
  {
    if n == 0 then [] else ListingsUpTo(r, lines, n - 1) + ListingIssued(r, lines[n - 1])
  }

  /** Concatenation is associative. */
  lemma AppendAssoc<T>(a: seq<T>, b: seq<T>, c: seq<T>)
    ensures (a + b) + c == a + (b + c)
  {
  }

  /** One more line reached appends its listing commands to the log. */
  lemma ListingsUpToStep(r: Remote, lines: seq<string>, i: nat, before: seq<Command>)
    requires i < |lines|
    ensures (before + ListingsUpTo(r, lines, i)) + ListingIssued(r, lines[i]) ==
      before + ListingsUpTo(r, lines, i + 1)
  {
    AppendAssoc(before, ListingsUpTo(r, lines, i), ListingIssued(r, lines[i]));
  }

  /** How many manifest lines the loop reaches once it has got through the
      first `i`: up to and including the first whose step raises, else all. */
  function Reached(steps: seq<Result<seq<Outcome>, Fault>>, i: nat): (n: nat)
    requires i <= |steps|
    ensures i <= n <= |steps|
    decreases |steps| - i
  {
    if i == |steps| then i
    else if steps[i].Failure? then i + 1
    else Reached(steps, i + 1)
  }

  /** Steps that succeed do not stop the loop. */
  lemma {:induction false} ReachedSkips(steps: seq<Result<seq<Outcome>, Fault>>, k: nat, i: nat)
    requires k <= i <= |steps|
    requires forall j :: k <= j < i ==> steps[j].Success?
    ensures Reached(steps, k) == Reached(steps, i)
    decreases i - k
  {
    if k < i {
      ReachedSkips(steps, k + 1, i);
    }
  }

  /** When every step before `i` succeeds and step `i` raises, the loop
      reaches exactly `i + 1` lines. */
  lemma ReachedAtFault(steps: seq<Result<seq<Outcome>, Fault>>, i: nat)
    requires i < |steps|
    requires Collect(steps[..i]).fault.None? && steps[i].Failure?
    ensures Reached(steps, 0) == i + 1
  {
    CollectComplete(steps[..i]);
    assert forall j :: 0 <= j < i ==> steps[..i][j] == steps[j];
    ReachedSkips(steps, 0, i);
  }

  /** When no step raises, the loop reaches every line. */
  lemma ReachedAll(steps: seq<Result<seq<Outcome>, Fault>>)
    requires Collect(steps).fault.None?
    ensures Reached(steps, 0) == |steps|
  {
    CollectComplete(steps);
    ReachedSkips(steps, 0, |steps|);
  }

  /** The commands `process_tracked_files` runs: `cat` of the manifest, then
      those of its lines. */
  function ProcessIssued(r: Remote, trackedPath: string, localBase: string): (cmds: seq<Command>)
  {
    [Cat(trackedPath)] +
    match r.shell(Cat(trackedPath))
    case Failure(_) => []
    case Success(text) =>
      var lines := SplitLines(text);
      ListingsUpTo(r, lines, Reached(EntrySteps(r, lines, localBase), 0))
  }

  /** One manifest line: list it, then download what the listing names. */
  method ProcessEntry(session: Session, store: LocalStore, line: string, localBase: string)
    returns (batch: Result<seq<Outcome>, Fault>)
    requires session.open && !session.sftpOpen
    modifies session, store
    ensures batch == EntryStep(session.remote, line, localBase)
    ensures batch.Success? ==> store.files == Mirror(old(store.files), batch.value)
    ensures batch.Success? ==> store.dirs == old(store.dirs) + DirsOf(batch.value)
    ensures batch.Failure? ==> store.files == old(store.files) && store.dirs == old(store.dirs)
    ensures session.issued == old(session.issued) + ListingIssued(session.remote, line)
    ensures session.open && !session.sftpOpen
  {
    var remoteFiles := ListRemoteFiles(session, line);
    if remoteFiles.Failure? {
      return Failure(remoteFiles.error);
    }
    batch := DownloadFiles(session, store, remoteFiles.value, localBase, line);
  }

  /** `process_tracked_files(ssh, tracked_file_path, local_backup_dir)`
      (confcove_server.py, lines 137-147). */
  method ProcessTrackedFiles(session: Session, store: LocalStore, trackedPath: string, localBase: string)
    returns (trace: Trace)
    requires session.open && !session.sftpOpen
    modifies session, store
    ensures trace == ProcessSpec(session.remote, trackedPath, localBase)
    ensures store.files == Mirror(old(store.files), trace.outs)
    ensures store.dirs == old(store.dirs) + DirsOf(trace.outs)
    ensures session.issued == old(session.issued) + ProcessIssued(session.remote, trackedPath, localBase)
    ensures session.open && !session.sftpOpen
  {
    var text := session.Exec(Cat(trackedPath));
    if text.Failure? {
      return Trace([], Some(text.error));
    }
    var lines := SplitLines(text.value);
    trace := ProcessLines(session, store, lines, localBase);
    AppendAssoc(old(session.issued), [Cat(trackedPath)],
                ListingsUpTo(session.remote, lines, Reached(EntrySteps(session.remote, lines, localBase), 0)));
  }

  /** The `for remote_path in tracked_paths` loop (confcove_server.py, lines
      144-147): the lines in order until the last one or the first exception. */
  method ProcessLines(session: Session, store: LocalStore, lines: seq<string>, localBase: string)
    returns (trace: Trace)
    requires session.open && !session.sftpOpen
    modifies session, store
    ensures trace == EntriesSpec(session.remote, lines, localBase)
    ensures store.files == Mirror(old(store.files), trace.outs)
    ensures store.dirs == old(store.dirs) + DirsOf(trace.outs)
    ensures session.issued ==
      old(session.issued) + ListingsUpTo(session.remote, lines, Reached(EntrySteps(session.remote, lines, localBase), 0))
    ensures session.open && !session.sftpOpen
  {
    ghost var steps := EntrySteps(session.remote, lines, localBase);
    var outs: seq<Outcome> := [];
    var i := 0;
    while i < |lines|
      invariant 0 <= i <= |lines|
      invariant Collect(steps[..i]) == Trace(outs, None)
      invariant store.files == Mirror(old(store.files), outs)
      invariant store.dirs == old(store.dirs) + DirsOf(outs)
      invariant session.issued == old(session.issued) + ListingsUpTo(session.remote, lines, i)
      invariant session.open && !session.sftpOpen
    {
      EntryStepsAt(session.remote, lines, localBase, i);
      CollectStep(steps, i);
      ListingsUpToStep(session.remote, lines, i, old(session.issued));
      var batch := ProcessEntry(session, store, lines[i], localBase);
      assert steps[i] == batch;
      if batch.Failure? {
        CollectStopsAtFault(steps, i);
        ReachedAtFault(steps, i);
        return Trace(outs, Some(batch.error));
      }
      MirrorAppend(old(store.files), outs, batch.value);
      outs := outs + batch.value;
      i := i + 1;
    }
    assert steps[..i] == steps && lines[..i] == lines;
    ReachedAll(steps);
    trace := Trace(outs, None);
  }

  /** Every outcome comes from the batch of some step. */
  lemma {:induction false} CollectFromSteps(steps: seq<Result<seq<Outcome>, Fault>>)
    ensures forall o :: o in Collect(steps).outs ==>
      exists i :: 0 <= i < |steps| && steps[i].Success? && o in steps[i].value
  {
    if steps != [] {
      var n := |steps| - 1;
      CollectFromSteps(steps[..n]);
      CollectStep(steps, n);
      assert steps[..n + 1] == steps;
      forall o | o in Collect(steps).outs
        ensures exists i :: 0 <= i < |steps| && steps[i].Success? && o in steps[i].value
      {
        if o in Collect(steps[..n]).outs {
          var i :| 0 <= i < |steps[..n]| && steps[..n][i].Success? && o in steps[..n][i].value;
          assert steps[i] == steps[..n][i];
        } else {
          assert steps[n].Success? && o in steps[n].value;
        }
      }
    }
  }

  /** The loop ends without an exception exactly when every step succeeds, and
      then every outcome of every step is kept. */
  lemma {:induction false} CollectComplete(steps: seq<Result<seq<Outcome>, Fault>>)
    ensures Collect(steps).fault.None? <==> forall i :: 0 <= i < |steps| ==> steps[i].Success?
    ensures Collect(steps).fault.None? ==>
      forall i, o :: 0 <= i < |steps| && o in steps[i].value ==> o in Collect(steps).outs
  {
    if steps != [] {
      var n := |steps| - 1;
      var init := steps[..n];
      CollectComplete(init);
      CollectStep(steps, n);
      assert steps[..n + 1] == steps;
      assert forall i :: 0 <= i < n ==> init[i] == steps[i];
    }
  }

  /** `f` is among the files listed for `line`. */
  predicate Listed(r: Remote, line: string, f: string)
  {
    ListingSpec(r, line).Success? && f in ListingSpec(r, line).value
  }

  /** `o` is the download of a file listed for `line`, placed by the
      destination rule with that raw line as the remote base. */
  predicate FromEntry(r: Remote, line: string, localBase: string, o: Outcome)
  {
    Listed(r, line, o.remote) && o.local == Destination(localBase, line, o.remote)
  }

  /** A line that succeeds contributes exactly the attempts on the files its
      listing names. */
  lemma EntryStepAttempts(r: Remote, line: string, localBase: string)
    requires EntryStep(r, line, localBase).Success?
    ensures ListingSpec(r, line).Success?
    ensures EntryStep(r, line, localBase).value == Attempts(r, localBase, line, ListingSpec(r, line).value)
  {
  }

  /** Every outcome comes from some manifest line: the file was listed for that
      line and its destination follows the rule with the raw line as base. */
  lemma OutcomesFromEntries(r: Remote, lines: seq<string>, localBase: string)
    ensures forall o :: o in EntriesSpec(r, lines, localBase).outs ==>
      exists i :: 0 <= i < |lines| && FromEntry(r, lines[i], localBase, o)
  {
    var steps := EntrySteps(r, lines, localBase);
    CollectFromSteps(steps);
    forall o | o in EntriesSpec(r, lines, localBase).outs
      ensures exists i :: 0 <= i < |lines| && FromEntry(r, lines[i], localBase, o)
    {
      var i :| 0 <= i < |steps| && steps[i].Success? && o in steps[i].value;
      EntryStepsAt(r, lines, localBase, i);
      EntryStepAttempts(r, lines[i], localBase);
      var files := ListingSpec(r, lines[i]).value;
      AttemptsInOrder(r, localBase, lines[i], files);
      var j :| 0 <= j < |steps[i].value| && steps[i].value[j] == o;
      assert o.remote == files[j];
      assert FromEntry(r, lines[i], localBase, o);
    }
  }

  /** When the run over the manifest ends without an exception, every file
      listed for every line has an outcome, at the destination computed with
      that line as the remote base. */
  lemma EntriesComplete(r: Remote, lines: seq<string>, localBase: string)
    requires EntriesSpec(r, lines, localBase).fault.None?
    ensures forall i, f :: 0 <= i < |lines| && Listed(r, lines[i], f) ==>
      exists o :: o in EntriesSpec(r, lines, localBase).outs && o.remote == f && o.local == Destination(localBase, lines[i], f)
  {
    var steps := EntrySteps(r, lines, localBase);
    CollectComplete(steps);
    forall i, f | 0 <= i < |lines| && Listed(r, lines[i], f)
      ensures exists o :: o in EntriesSpec(r, lines, localBase).outs && o.remote == f && o.local == Destination(localBase, lines[i], f)
    {
      EntryStepsAt(r, lines, localBase, i);
      assert steps[i].Success?;
      EntryStepAttempts(r, lines[i], localBase);
      var files := ListingSpec(r, lines[i]).value;
      AttemptsInOrder(r, localBase, lines[i], files);
      var j :| 0 <= j < |files| && files[j] == f;
      var o := steps[i].value[j];
      assert o in steps[i].value;
      assert o.remote == f && o.local == Destination(localBase, lines[i], f);
    }
  }

  /** A line that fails ends the work: the outcomes are those of the lines
      before it, and its exception is the one reported. */
  lemma EntriesStopAtFault(r: Remote, lines: seq<string>, localBase: string, i: nat)
    requires i < |lines|
    requires EntriesSpec(r, lines[..i], localBase).fault.None?
    requires EntryStep(r, lines[i], localBase).Failure?
    ensures EntriesSpec(r, lines, localBase) ==
      Trace(EntriesSpec(r, lines[..i], localBase).outs, Some(EntryStep(r, lines[i], localBase).error))
  {
    var steps := EntrySteps(r, lines, localBase);
    EntryStepsAt(r, lines, localBase, i);
    EntryStepsPrefix(r, lines, localBase, i);
    CollectStep(steps, i);
    CollectStopsAtFault(steps, i);
  }

  lemma {:induction false} EntryStepsPrefix(r: Remote, lines: seq<string>, localBase: string, i: nat)
    requires i <= |lines|
    ensures EntrySteps(r, lines, localBase)[..i] == EntrySteps(r, lines[..i], localBase)
    decreases |lines|
  {
    if i < |lines| {
      var init := lines[..|lines| - 1];
      EntryStepsPrefix(r, init, localBase, i);
      assert init[..i] == lines[..i];
    } else {
      assert lines[..i] == lines;
    }
  }

  // ---- backup_machine ----

  /** A record of the inventory: a JSON object with string values. */
  type Record = map<string, string>

  /** `machine.get(key, defaults.get(key))`. */
  function Field(machine: Record, defaults: Record, key: string): (value: Option<string>)
    ensures value.Some? <==> key in defaults + machine
    ensures value.Some? ==> value.value == (defaults + machine)[key]
  {
    if key in machine then Some(machine[key])
    else if key in defaults then Some(defaults[key])
    else None
  }

  /** What `connect_ssh` is given. */
  datatype Credentials = Credentials(
    host: string,
    username: Option<string>,
    password: Option<string>,
    keyPath: Option<string>)

  function CredentialsOf(machine: Record, defaults: Record): (c: Credentials)
    requires "host" in machine
  {
    Credentials(machine["host"], Field(machine, defaults, "username"),
      Field(machine, defaults, "password"), Field(machine, defaults, "key_path"))
  }

  /** How the backup of one machine ended. */
  datatype Status = Skipped | BackedUp | Crashed(fault: Fault)

  datatype MachineResult = MachineResult(status: Status, outs: seq<Outcome>)

  const BackupDir: string := "/opt/ConfigCove_repo"

  /** What happens between connecting and closing the session. */
  function SessionSpec(r: Remote, trackedFilePath: Option<string>, localBase: string): (m: MachineResult)
  {
    match trackedFilePath
    case None => MachineResult(Crashed(NoTrackedFilePath), [])
    case Some(p) =>
      match ExpandSpec(r, p)
      case Failure(f) => MachineResult(Crashed(f), [])
      case Success(path) =>
        var t := ProcessSpec(r, path, localBase);
        MachineResult(if t.fault.Some? then Crashed(t.fault.value) else BackedUp, t.outs)
  }

  /** The commands run on the session between connecting and closing it:
      `echo $HOME` when the tracked path needs the home, then, when the path
      is set and expands, those of `process_tracked_files`. */
  function SessionIssued(r: Remote, trackedFilePath: Option<string>, localBase: string): (cmds: seq<Command>)
  {
    match trackedFilePath
    case None => []
    case Some(p) =>
      (if NeedsHome(p) then [EchoHome] else []) +
      match ExpandSpec(r, p)
      case Failure(_) => []
      case Success(path) => ProcessIssued(r, path, localBase)
  }

  /** `SessionIssued` for a set tracked path: the home query, then the
      manifest's commands exactly when the expansion succeeds. */
  lemma SessionIssuedSome(r: Remote, p: string, localBase: string)
    ensures SessionIssued(r, Some(p), localBase) ==
      (if NeedsHome(p) then [EchoHome] else []) +
      (if ExpandSpec(r, p).Failure? then [] else ProcessIssued(r, ExpandSpec(r, p).value, localBase))
  {
  }

  /** What `backup_machine` does for one machine of the inventory. */
  function MachineSpec(connect: Credentials -> Option<Remote>, machine: Record, defaults: Record,
                       backupDir: string): (m: MachineResult)
  {
    if "name" !in machine then MachineResult(Crashed(KeyError("name")), [])
    else if "host" !in machine then MachineResult(Crashed(KeyError("host")), [])
    else
      match connect(CredentialsOf(machine, defaults))
      case None => MachineResult(Skipped, [])
      case Some(r) =>
        SessionSpec(r, Field(machine, defaults, "tracked_file_path"), Join(backupDir, machine["name"]))
  }

  /** The machine has both `name` and `host` and the connection succeeds: exactly the
      machines for which `backup_machine` opens a session. */
  predicate Connects(connect: Credentials -> Option<Remote>, machine: Record, defaults: Record)
  {
    "name" in machine && "host" in machine && connect(CredentialsOf(machine, defaults)).Some?
  }

  /** `backup_machine(machine, defaults, backup_dir)` (confcove_server.py,
      lines 171-192). `connect` stands for `connect_ssh`; the session it opens
      is returned so that its final state can be stated. */
  method BackupMachine(connect: Credentials -> Option<Remote>, machine: Record, defaults: Record,
                       backupDir: string, store: LocalStore)
    returns (result: MachineResult, session: Session?)
    modifies store
    ensures result == MachineSpec(connect, machine, defaults, backupDir)
    ensures store.files == Mirror(old(store.files), result.outs)
    ensures store.dirs == old(store.dirs) + DirsOf(result.outs)
    ensures session != null <==> Connects(connect, machine, defaults)
    ensures session != null ==> fresh(session) && !session.open && !session.sftpOpen
    ensures session != null ==>
      session.remote == connect(CredentialsOf(machine, defaults)).value &&
      session.issued == SessionIssued(session.remote, Field(machine, defaults, "tracked_file_path"),
                                      Join(backupDir, machine["name"]))
  {
    if "name" !in machine {
      return MachineResult(Crashed(KeyError("name")), []), null;
    }
    if "host" !in machine {
      return MachineResult(Crashed(KeyError("host")), []), null;
    }
    var name := machine["name"];
    var credentials := CredentialsOf(machine, defaults);
    var trackedFilePath := Field(machine, defaults, "tracked_file_path");
    var remote := connect(credentials);
    if remote.None? {
      return MachineResult(Skipped, []), null;
    }
    session := new Session(remote.value);
    ghost var localBase := Join(backupDir, name);
    // try:
    if trackedFilePath.None? {
      result := MachineResult(Crashed(NoTrackedFilePath), []);
    } else {
      var expanded := GetTrackedFilePath(session, trackedFilePath.value);
      ghost var home := session.issued;
      assert home == (if NeedsHome(trackedFilePath.value) then [EchoHome] else []);
      SessionIssuedSome(session.remote, trackedFilePath.value, localBase);
      if expanded.Failure? {
        result := MachineResult(Crashed(expanded.error), []);
        assert session.issued == home + [];
      } else {
        var localBackupDir := Join(backupDir, name);
        var trace := ProcessTrackedFiles(session, store, expanded.value, localBackupDir);
        result := MachineResult(if trace.fault.Some? then Crashed(trace.fault.value) else BackedUp, trace.outs);
        assert session.issued == home + ProcessIssued(session.remote, expanded.value, localBase);
      }
    }
    // finally:
    session.Close();
  }

  /** A machine whose connection fails contributes nothing and is skipped. */
  lemma ConnectionFailureSkips(connect: Credentials -> Option<Remote>, machine: Record, defaults: Record,
                               backupDir: string)
    requires "name" in machine && "host" in machine
    requires connect(CredentialsOf(machine, defaults)).None?
    ensures MachineSpec(connect, machine, defaults, backupDir) == MachineResult(Skipped, [])
  {
  }

  // ---- main ----

  /** The parsed inventory: the defaults and the machines, in file order. */
  datatype Inventory = Inventory(defaults: Record, machines: seq<Record>)

  datatype RunResult = NoMachines | Ran(statuses: seq<Status>)

  datatype RunTrace = RunTrace(statuses: seq<Status>, outs: seq<Outcome>)

  predicate Halted(t: RunTrace)
  {
    |t.statuses| > 0 && t.statuses[|t.statuses| - 1].Crashed?
  }

  /** The results of backing up each machine on its own, in inventory order. */
  function MachineResults(connect: Credentials -> Option<Remote>, defaults: Record, machines: seq<Record>,
                          backupDir: string): (rs: seq<MachineResult>)
    ensures |rs| == |machines|
  {
    if machines == [] then []
    else
      MachineResults(connect, defaults, machines[..|machines| - 1], backupDir) +
      [MachineSpec(connect, machines[|machines| - 1], defaults, backupDir)]
  }

  lemma {:induction false} MachineResultsAt(connect: Credentials -> Option<Remote>, defaults: Record,
                                            machines: seq<Record>, backupDir: string, i: nat)
    requires i < |machines|
    ensures MachineResults(connect, defaults, machines, backupDir)[i] ==
      MachineSpec(connect, machines[i], defaults, backupDir)
    decreases |machines|
  {
    if i < |machines| - 1 {
      var init := machines[..|machines| - 1];
      MachineResultsAt(connect, defaults, init, backupDir, i);
      assert init[i] == machines[i];
    }
  }

  /** The machine loop of `main` over those results: in order, and an
      exception out of one machine ends the run. */
  function RunOver(rs: seq<MachineResult>): (t: RunTrace)
  {
    if rs == [] then RunTrace([], [])
    else
      var before := RunOver(rs[..|rs| - 1]);
      if Halted(before) then before
      else RunTrace(before.statuses + [rs[|rs| - 1].status], before.outs + rs[|rs| - 1].outs)
  }

  function RunSpec(connect: Credentials -> Option<Remote>, defaults: Record, machines: seq<Record>,
                   backupDir: string): (t: RunTrace)
  {
    RunOver(MachineResults(connect, defaults, machines, backupDir))
  }

  lemma RunStep(rs: seq<MachineResult>, i: nat)
    requires i < |rs|
    ensures var before := RunOver(rs[..i]);
      RunOver(rs[..i + 1]) ==
        if Halted(before) then before
        else RunTrace(before.statuses + [rs[i].status], before.outs + rs[i].outs)
  {
    var prefix := rs[..i + 1];
    assert prefix[..|prefix| - 1] == rs[..i];
    assert prefix[|prefix| - 1] == rs[i];
  }

  lemma {:induction false} RunStopsAtCrash(rs: seq<MachineResult>, i: nat)
    requires i < |rs|
    requires Halted(RunOver(rs[..i + 1]))
    ensures RunOver(rs) == RunOver(rs[..i + 1])
    decreases |rs|
  {
    if i + 1 == |rs| {
      assert rs[..i + 1] == rs;
    } else {
      assert rs[..|rs| - 1][..i + 1] == rs[..i + 1];
      RunStopsAtCrash(rs[..|rs| - 1], i);
    }
  }

  /** Results computed machine by machine agree with the specification. The
      trigger keeps the definition of `MachineSpec` out of reach until a
      result is compared with it. */
  ghost predicate ResultsOf(connect: Credentials -> Option<Remote>, defaults: Record, machines: seq<Record>,
                            done: seq<MachineResult>)
  {
    |done| <= |machines| &&
    forall k {:trigger MachineSpec(connect, machines[k], defaults, BackupDir)} ::
      0 <= k < |done| ==> done[k] == MachineSpec(connect, machines[k], defaults, BackupDir)
  }

  lemma {:induction false} MachineResultsPrefix(connect: Credentials -> Option<Remote>, defaults: Record,
                                                machines: seq<Record>, done: seq<MachineResult>)
    requires ResultsOf(connect, defaults, machines, done)
    ensures MachineResults(connect, defaults, machines, BackupDir)[..|done|] == done
  {
    var rs := MachineResults(connect, defaults, machines, BackupDir);
    forall k | 0 <= k < |done|
      ensures rs[k] == done[k]
    {
      MachineResultsAt(connect, defaults, machines, BackupDir, k);
    }
  }

  /** The run ends where the specification says: after the last machine, or
      right after a machine crashed. */
  lemma RunSpecReached(connect: Credentials -> Option<Remote>, defaults: Record, machines: seq<Record>,
                       done: seq<MachineResult>)
    requires ResultsOf(connect, defaults, machines, done)
    requires |done| == |machines| || Halted(RunOver(done))
    ensures RunSpec(connect, defaults, machines, BackupDir) == RunOver(done)
  {
    var rs := MachineResults(connect, defaults, machines, BackupDir);
    MachineResultsPrefix(connect, defaults, machines, done);
    if |done| == |machines| {
      assert rs == done by {
        assert rs[..|done|] == rs;
      }
    } else {
      RunSpecHalted(rs, done);
    }
  }

  /** A run that crashed at its last machine is not extended by later results. */
  lemma RunSpecHalted(rs: seq<MachineResult>, done: seq<MachineResult>)
    requires |done| <= |rs| && rs[..|done|] == done && Halted(RunOver(done))
    ensures RunOver(rs) == RunOver(done)
  {
    assert |done| > 0;
    RunStopsAtCrash(rs, |done| - 1);
  }

  /** `sessions[k]` is the session opened for the `k`-th machine: present
      exactly when that machine connects. */
  ghost predicate SessionsOf(connect: Credentials -> Option<Remote>, defaults: Record, machines: seq<Record>,
                             sessions: seq<Session?>)
  {
    |sessions| <= |machines| &&
    forall k {:trigger Connects(connect, machines[k], defaults)} :: 0 <= k < |sessions| ==>
      (sessions[k] != null <==> Connects(connect, machines[k], defaults))
  }

  /** Every session opened has been closed. */
  ghost predicate AllClosed(sessions: seq<Session?>)
    reads set k | 0 <= k < |sessions| && sessions[k] != null :: sessions[k]
  {
    forall k :: 0 <= k < |sessions| && sessions[k] != null ==> !sessions[k].open
  }

  /** One iteration of the machine loop: back up the `i`-th machine. */
  method BackupNext(connect: Credentials -> Option<Remote>, defaults: Record, machines: seq<Record>, i: nat,
                    store: LocalStore, ghost done: seq<MachineResult>, ghost sessions: seq<Session?>)
    returns (m: MachineResult, ghost session: Session?)
    requires i == |done| < |machines| && ResultsOf(connect, defaults, machines, done)
    requires |sessions| == i && SessionsOf(connect, defaults, machines, sessions) && AllClosed(sessions)
    modifies store
    ensures ResultsOf(connect, defaults, machines, done + [m])
    ensures store.files == Mirror(old(store.files), m.outs)
    ensures store.dirs == old(store.dirs) + DirsOf(m.outs)
    ensures session != null <==> Connects(connect, machines[i], defaults)
    ensures session != null ==> fresh(session)
    ensures SessionsOf(connect, defaults, machines, sessions + [session]) && AllClosed(sessions + [session])
  {
    m, session := BackupMachine(connect, machines[i], defaults, BackupDir, store);
    assert (done + [m])[i] == m;
    assert (sessions + [session])[i] == session;
    assert forall k :: 0 <= k < i ==> (sessions + [session])[k] == sessions[k];
  }

  /** The `for machine in machines` loop of `main` (confcove_server.py, lines
      211-212): machines in order until the last one or the first crash. */
  method RunMachines(connect: Credentials -> Option<Remote>, defaults: Record, machines: seq<Record>,
                     store: LocalStore)
    returns (statuses: seq<Status>, ghost done: seq<MachineResult>, ghost sessions: seq<Session?>)
    modifies store
    ensures ResultsOf(connect, defaults, machines, done)
    ensures |done| == |machines| || Halted(RunOver(done))
    ensures statuses == RunOver(done).statuses && |statuses| == |done|
    ensures store.files == Mirror(old(store.files), RunOver(done).outs)
    ensures store.dirs == old(store.dirs) + DirsOf(RunOver(done).outs)
    ensures |sessions| == |done| && SessionsOf(connect, defaults, machines, sessions) && AllClosed(sessions)
  {
    done, statuses, sessions := [], [], [];
    ghost var outs: seq<Outcome> := [];
    var i := 0;
    while i < |machines|
      invariant 0 <= i <= |machines| && |done| == i
      invariant ResultsOf(connect, defaults, machines, done)
      invariant RunOver(done) == RunTrace(statuses, outs)
      invariant !Halted(RunTrace(statuses, outs))
      invariant store.files == Mirror(old(store.files), outs)
      invariant store.dirs == old(store.dirs) + DirsOf(outs)
      invariant |statuses| == i && |sessions| == i
      invariant SessionsOf(connect, defaults, machines, sessions) && AllClosed(sessions)
    {
      var m, session := BackupNext(connect, defaults, machines, i, store, done, sessions);
      sessions := sessions + [session];
      RunStep(done + [m], i);
      assert (done + [m])[..i] == done && (done + [m])[..i + 1] == done + [m];
      MirrorAppend(old(store.files), outs, m.outs);
      DirsAppend(old(store.dirs), outs, m.outs);
      done := done + [m];
      statuses, outs := statuses + [m.status], outs + m.outs;
      if m.status.Crashed? {
        return;
      }
      i := i + 1;
    }
  }

  /** The body of `main` after the inventory is loaded (confcove_server.py,
      lines 206-212). Returns the sessions it opened. */
  method BackupAll(connect: Credentials -> Option<Remote>, inventory: Inventory, store: LocalStore)
    returns (result: RunResult, ghost sessions: seq<Session?>)
    modifies store
    ensures inventory.machines == [] ==>
      result == NoMachines && sessions == [] &&
      store.files == old(store.files) && store.dirs == old(store.dirs)
    ensures inventory.machines != [] ==>
      var t := RunSpec(connect, inventory.defaults, inventory.machines, BackupDir);
      result == Ran(t.statuses) &&
      store.files == Mirror(old(store.files), t.outs) &&
      store.dirs == old(store.dirs) + DirsOf(t.outs)
    ensures inventory.machines != [] ==> |sessions| == |result.statuses|
    ensures SessionsOf(connect, inventory.defaults, inventory.machines, sessions) && AllClosed(sessions)
  {
    if inventory.machines == [] {
      return NoMachines, [];
    }
    var statuses;
    ghost var done;
    statuses, done, sessions := RunMachines(connect, inventory.defaults, inventory.machines, store);
    RunSpecReached(connect, inventory.defaults, inventory.machines, done);
    result := Ran(statuses);
  }

  /** The run attempts machines in inventory order; it ends early only right
      after a machine crashed, and a skipped machine never ends it. */
  lemma {:induction false} RunInOrder(rs: seq<MachineResult>)
    ensures var t := RunOver(rs);
      |t.statuses| <= |rs| &&
      (forall i :: 0 <= i < |t.statuses| ==> t.statuses[i] == rs[i].status) &&
      (forall i :: 0 <= i < |t.statuses| - 1 ==> !t.statuses[i].Crashed?) &&
      (|t.statuses| < |rs| ==> Halted(t))
  {
    if rs != [] {
      var init := rs[..|rs| - 1];
      RunInOrder(init);
      assert forall i :: 0 <= i < |init| ==> init[i] == rs[i];
    }
  }

  /** If the first machine cannot be reached, the second is still backed up in full. */
  lemma ConnectionFailureIsolated(connect: Credentials -> Option<Remote>, defaults: Record,
                                  m1: Record, m2: Record, backupDir: string)
    requires "name" in m1 && "host" in m1 && connect(CredentialsOf(m1, defaults)).None?
    ensures var m := MachineSpec(connect, m2, defaults, backupDir);
      RunSpec(connect, defaults, [m1, m2], backupDir) == RunTrace([Skipped, m.status], m.outs)
  {
    ConnectionFailureSkips(connect, m1, defaults, backupDir);
    var rs := MachineResults(connect, defaults, [m1, m2], backupDir);
    MachineResultsAt(connect, defaults, [m1, m2], backupDir, 0);
    MachineResultsAt(connect, defaults, [m1, m2], backupDir, 1);
    RunStep(rs, 0);
    RunStep(rs, 1);
    assert rs[..0] == [];
    assert rs[..2] == rs;
  }
}

=== FILE: wrappers.dfy ===
/** Option and Result values, used where the Python code returns None or raises. */
module Wrappers {

  datatype Option<+T> = None | Some(value: T)

  datatype Result<+R, +E> = Success(value: R) | Failure(error: E)
}
